=== FILE: README.md ===
# EZRelay descriptor bookkeeping in Dafny

EZRelay is a small TCP relay that gives a client behind a NAT a public port.
The relay (`EZRelay`) has a control listener. When a client connects to it,
the relay opens a *client listener* on an ephemeral port and tells the client
`<hostname>:<port>\n`.

When an external peer connects to that client listener, the relay:

1. opens a one-shot *backchannel listener*;
2. sends its port to the client as `<port>\n`;
3. waits for the client (`EZRelayClient`) to dial it;
4. joins the peer socket and the client's new socket into a *tunnel*: a mutual
   pair in `socket_requests` whose bytes are spliced across.

Descriptors that have finished are put in a *close queue* (descriptor ->
already closed?). At the start of the next `run` the relay tears down each
pending descriptor that still has a role in its tables. A pending descriptor
with no role is not closed when the pass reaches it, and the queue forgets it
at the end of the pass; it is closed only when another entry's teardown
closes it too (a waiting peer goes with its backchannel listener), and
otherwise it stays in the poll list. The client closes every pending
descriptor.

This project models that state machine as pure functions over immutable
values. Every call into the operating system becomes a parameter carrying its
abstract outcome:

- what `accept` returned;
- what a new listener turned out to be;
- the byte counts `splice` returned;
- what `poll` reported;
- what `recv` delivered;
- whether `connectToAddress` threw.

Exceptions are modelled as a `Raised` (relay) or `Stopped` (client) result.
That result carries the object state at the point where the exception leaves
the object.

Modules:

- `Tables`: `unordered_map::operator[]` as get-or-insert-0, the
  remove/erase idiom on vectors, and enumerations of a map's keys.
- `Text`: `std::to_string`, the `stringstream >> int` extraction, and
  `readLine`.
- `Descriptors`: the poll list, the close queue and the close calls issued.
  Both classes share them: `addPollSocket`, `removePollSocket`,
  `addToCloseQueue`, `closeConnection`.
- `RelayState`, `RelayHandlers`, `RelayLoop`: the relay's tables, its
  handlers, and its close-queue pass, poll round and `run`.
- `RelayClient`: the client.
- `Protocol`: the port line as sent by one side and acted on by the other.

The model keeps the source's behaviour where it is surprising:

- `socket_ports` is written keyed by port but read keyed by socket.
- `operator[]` inserts on a miss.
- The close queue is iterated in any order, with flags read live.
- `doPoll` works on a copy of the poll list.
- `readLine` returns after its first chunk, because the newline test
  `find(...) <= buffer + len` always holds.

Lemmas spell out what follows from these:

- `CascadeMissesTunnel`: removing a client leaves its tunnels registered.
- `StopThenRunLeaks`: `stopListening` then `run` leaves the old control
  listener polled and never closed.
- `SplitAnnouncementMisdials`: a port line of two or more digits split
  after its first digit across two `recv` calls makes the client dial the
  one-digit port.

## Model

| member | source | states |
|---|---|---|
| Tables.Subscript | ezrelay.cpp:94-95 | reading a missing key yields 0 and inserts it; present keys keep their values |
| Tables.SubscriptFlag | ezrelay.cpp:145-146 | reading a missing flag yields false and inserts it; a present flag is read without changing the map |
| Tables.SubscriptAll | ezrelay.cpp:279-281 | after the cascade's lookups every tunnel socket is a key of `socket_ports`, the missing ones with 0, the others unchanged |
| Tables.Without | ezrelay.cpp:84 | every occurrence of the descriptor leaves the list, every other descriptor stays in it, and a list without the descriptor is unchanged |
| Tables.WithoutKeepsOthers | ezrelay.cpp:84 | every descriptor other than the removed one keeps its multiplicity |
| Tables.WithoutConcat | ezrelay.cpp:84 | removal distributes over concatenation, so the remaining entries keep their relative order |
| Text.Decimal | ezrelay.cpp:324 | `to_string` output is non-empty, starts with '-' exactly for negatives, and is all digits otherwise |
| Text.ValueOfDigits | ezrelay.cpp:324 | reading back the decimal digits of a natural number gives the number |
| Text.ParseInt | ezrelayclient.cpp:87-92 | the extracted value is within `int` range, and is 0 when the line does not start (after white space) with an optional sign and a digit |
| Text.ParseDecimal | ezrelayclient.cpp:90-92 | extracting an `int` from what `to_string` printed, followed by a non-digit such as the newline, gives the number back |
| Text.FindWithinChunk | ezrelay.cpp:492 | the newline search never points past the chunk, and points inside it exactly when the chunk holds a newline |
| Text.ReadLineTakesFirstChunk | ezrelay.cpp:487-498 | `readLine` appends only the first received chunk and succeeds exactly when that `recv` returned data |
| Descriptors.AddThenRemovePollSocket | ezrelay.cpp:73-88 | removing a descriptor right after adding it leaves the poll list exactly as removing it alone would |
| Descriptors.RemovePollSocket | ezrelay.cpp:82-88 | the descriptor is no longer polled; every other entry keeps its multiplicity; queue and closes untouched |
| Descriptors.AddToCloseQueue | ezrelay.cpp:135-140 | an absent descriptor becomes pending; an existing entry, closed or not, is left exactly as it was |
| Descriptors.AddToCloseQueueIdempotent | ezrelayclient.cpp:63-68 | queueing twice is queueing once |
| Descriptors.CloseConnection | ezrelay.cpp:361-377 | only a pending descriptor is acted on: one close is issued, its flag becomes true and it leaves the poll list; otherwise nothing changes, and afterwards it is never pending |
| Descriptors.CloseConnectionIdempotent | ezrelayclient.cpp:135-145 | a second close call changes nothing |
| Descriptors.QueueAndClose | ezrelay.cpp:116-117 | whatever the entry was, the descriptor ends marked closed, and the queue only advances |
| Descriptors.QueueAndCloseMarks | ezrelay.cpp:116-117 | queue-and-close marks exactly that entry closed and touches no other entry |
| Descriptors.CloseAll | ezrelay.cpp:279-289 | every descriptor of the set ends closed, other entries keep their flags, and the queue only advances |
| Descriptors.CloseAllSingleton | ezrelay.cpp:283-284 | closing a one-element set is one queue-and-close |
| Descriptors.CloseAllSplit | ezrelay.cpp:280-289 | closing a set then one more descriptor equals closing the union |
| Descriptors.CloseAllNothing | ezrelay.cpp:279-289 | closing the empty set changes nothing |
| Descriptors.QueueAndCloseEach | ezrelay.cpp:283-284 | issuing queue-and-close for each descriptor of a list, one after the other, leaves every listed descriptor closed and the queue only advances |
| Descriptors.QueueAndCloseEachIsCloseAll | ezrelay.cpp:279-289 | for every order that lists each descriptor of a set once, the one-at-a-time calls end in exactly the state of closing the set at once |
| Descriptors.QueueAndCloseEachAfter | ezrelay.cpp:279-289 | closing a set at once and then the descriptors of a disjoint set one at a time equals closing the union at once |
| Tables.EnumeratedMembers | ezrelay.cpp:143 | a duplicate-free enumeration of a key set has exactly those keys as members |
| Tables.InversesWith | ezrelay.cpp:265-266 | filing a fresh key under a fresh value in two inverse maps keeps them inverse |
| Tables.InversesWithout | ezrelay.cpp:277-278 | erasing a key from one of two inverse maps and its value from the other keeps them inverse |
| Tables.SymmetricWith | ezrelay.cpp:112-113 | pairing two fresh keys with each other keeps a map symmetric |
| RelayState.Init | ezrelay.cpp:9-19 | a new relay listens on nothing, has port 8000, host "localhost" and empty tables |
| RelayHandlers.RegisterRequest | ezrelay.cpp:91-133 | the exception is raised exactly when accept fails, and then nothing is closed or sent and, for a registered listener, no table changes; on success the listener ends closed and nothing is sent |
| RelayHandlers.RegisterRequestPairs | ezrelay.cpp:108-119 | on success the peer and the new socket are each other's tunnel partner, other tunnel entries are kept, the listener leaves both request tables, the client tables are untouched, and `socket_ports` changes only under the client's port, where the new socket is filed |
| RelayHandlers.RegisterRequestPolls | ezrelay.cpp:114-117 | on success the peer and the new socket are appended to the poll list and the listener is marked closed; unless it was closed already, that issues exactly one close and removes every entry for it from the list, and otherwise no close is issued and no entry removed |
| RelayHandlers.PairUp | ezrelay.cpp:110-119 | the pair is mutual, other tunnel entries are kept, the listener leaves both request tables, and `socket_ports` changes only under the port |
| RelayHandlers.PollPair | ezrelay.cpp:114-117 | the two tunnel members are appended to the poll list and the listener's queue entry is set to closed; the list loses the listener's entries and one close is issued exactly when it was not closed before |
| RelayHandlers.AddClientListener | ezrelay.cpp:259-269 | listener and port are recorded as inverses of each other and are the only new keys, the port joins `client_ports`, the listener is polled, every other entry of the client and request tables is kept, and no close is issued |
| RelayHandlers.AcceptClientKeepsInverse | ezrelay.cpp:247-266 | when the new listener and its port are not in use, `listener_client` and `client_listeners` stay inverse maps |
| RelayHandlers.RegisterRequestKeepsSymmetric | ezrelay.cpp:108-119 | when neither tunnel member is registered yet, `socket_requests` stays symmetric |
| RelayHandlers.AcceptClient | ezrelay.cpp:232-254 | nothing happens when not listening or accept fails; a listener failure raises; otherwise the listener/port pair is recorded both ways, the control connection is stored under the port, exactly `hostname:port\n` is sent to it, the new listener and port are the only new keys, every other client keeps its entries, and no close is issued |
| RelayHandlers.RemoveClientListener | ezrelay.cpp:273-294 | the listener ends closed, the queue only advances and nothing is sent |
| RelayHandlers.RemoveClientListenerForgets | ezrelay.cpp:274-278 | afterwards `listener_client` has lost exactly the listener and `client_listeners` exactly its port, the port is in neither `client_socket` nor `client_ports`, and the request tables are untouched |
| RelayHandlers.RemoveClientListenerCloses | ezrelay.cpp:279-291 | the control connection filed under the port and every tunnel entry the cascade matches end closed, and the matched entries leave `socket_requests` |
| RelayHandlers.RemoveClientListenerKeeps | ezrelay.cpp:279-289 | tunnel entries the cascade does not match keep their partner and have a `socket_ports` entry |
| RelayHandlers.RemoveClientListenerRoles | ezrelay.cpp:272-293 | removing a registered client listener changes neither configuration nor listening state, loses no message already sent and undoes no close; every descriptor that had a role either still has one or has been closed |
| RelayHandlers.Unlist | ezrelay.cpp:274-278 | the listener is closed and leaves `listener_client`, its port leaves `client_listeners`, and nothing else in the tables changes |
| RelayHandlers.UnlistKeepsTunnels | ezrelay.cpp:274-281 | the cascade sees the tunnel tables as they were on entry, so it matches the same entries |
| RelayHandlers.RemoveClientListenerKeepsInverse | ezrelay.cpp:273-278 | removing a registered client listener keeps `listener_client` and `client_listeners` inverse maps |
| RelayHandlers.RemoveClientListenerBreaksSymmetry | ezrelay.cpp:281-285 | when the cascade matches one member of a tunnel pair but not its partner, only the matched entry is erased and `socket_requests` stops being symmetric |
| RelayHandlers.CascadeInAnyOrder | ezrelay.cpp:279-289 | whatever order the iteration meets the matched entries in, the descriptors end as the set-at-once cascade leaves them |
| RelayHandlers.Cascade | ezrelay.cpp:279-289 | matched tunnel entries end closed and erased, unmatched ones stay with a `socket_ports` entry, and only the two tunnel tables change |
| RelayHandlers.DropControl | ezrelay.cpp:290-293 | the control connection under the port ends closed, and the port leaves `client_socket` and `client_ports` |
| RelayHandlers.CascadeMissesTunnel | ezrelay.cpp:110-111 | a tunnel registered for a client survives that client's removal, because its socket is not the key it was filed under |
| RelayHandlers.AcceptRequest | ezrelay.cpp:297-330 | a failed accept changes nothing for a registered listener; a listener failure raises; otherwise the backchannel listener records the peer and the client port, is polled, and its port is sent as `port\n` on the client's control connection; the only new keys are the backchannel and the insert-on-miss reads of the listener and its port, every other entry is kept, `socket_ports` and `client_ports` are unchanged, and no close is issued |
| RelayHandlers.ForwardRequest | ezrelay.cpp:332-359 | the result is true exactly when splice moved bytes, and then nothing changes; otherwise both ends are queued, existing entries untouched, the poll list unchanged and no close issued |
| RelayHandlers.DrainFrom | ezrelay.cpp:219-223 | at most limit+1 forwards, all but the last moved bytes, stopping early only on a forward that moved nothing, which queues both ends |
| RelayHandlers.Drain | ezrelay.cpp:216-224 | the hangup drain makes at most FLUSH_LIMIT+1 forwards and leaves the relay as it was or with both ends queued |
| RelayHandlers.RunHandler | ezrelay.cpp:174-228 | POLLIN is handled before a hangup; a hangup on the control listener raises; any other hangup queues the descriptor, changes no table and no poll entry, and issues no close; no readiness changes nothing |
| RelayHandlers.RunReadable | ezrelay.cpp:178-203 | a readable descriptor goes to the handler of its first role in the order control listener, backchannel listener, client listener, tunnel member; with no role it is queued |
| RelayLoop.ProcessEntry | ezrelay.cpp:143-169 | a visited key with a role ends closed, a role is lost only by a closed descriptor, a key without a role changes nothing, and the queue only advances |
| RelayLoop.DropClient | ezrelay.cpp:150-153 | a client listener ends closed, roles are lost only by closed descriptors, and any other descriptor changes nothing |
| RelayLoop.TearDown | ezrelay.cpp:150-169 | the three independent role tests close the descriptor if it has any role and change nothing if it has none |
| RelayLoop.CloseTunnel | ezrelay.cpp:154-162 | both tunnel members end closed; the tables keep them |
| RelayLoop.CloseBackchannel | ezrelay.cpp:163-169 | the backchannel listener and its waiting peer end closed; the tables keep them |
| RelayLoop.CloseQueuePass | ezrelay.cpp:143-170 | in any visiting order, every visited key that had a role or was closed ends closed, and roles are only lost by closed descriptors |
| RelayLoop.ProcessCloseQueue | ezrelay.cpp:142-172 | the queue ends empty; each pending descriptor with a role is closed once more and no longer polled; a polled descriptor that was not closed again is still polled; nothing is added to the poll list |
| RelayLoop.PassOverOrphans | ezrelay.cpp:150-169 | visiting keys with no role changes nothing |
| RelayLoop.OrphansDropped | ezrelay.cpp:142-172 | when no queued descriptor has a role, the pass only empties the queue: none is closed or stops being polled |
| RelayLoop.Dispatch | ezrelay.cpp:397-406 | handlers keep the relay's configuration and only append messages; with no readiness on the remaining entries nothing changes |
| RelayLoop.HandlerKeeps | ezrelay.cpp:174-228 | no handler changes host, port, control listener or listening flag, or retracts a message |
| RelayLoop.DoPoll | ezrelay.cpp:379-409 | an empty poll list or a non-positive poll count handles nothing |
| RelayLoop.ControlLossEndsRound | ezrelay.cpp:204-215 | a hangup on the control listener ends the round with the exception, and later snapshot entries are not handled |
| RelayLoop.Listen | ezrelay.cpp:448-460 | an idle relay creates and polls its control listener and starts listening, or raises; a listening relay is unchanged |
| RelayLoop.StopListening | ezrelay.cpp:463-468 | the relay stops listening and the control listener is queued exactly as addToCloseQueue queues it, but it keeps its poll entry and no close is issued |
| RelayLoop.SetCommsPort | ezrelay.cpp:423-428 | the new port is recorded and the relay is not left listening on the old one |
| RelayLoop.ClosePassed | ezrelay.cpp:470-485 | the relay the poll round starts from is listening, with an empty queue, every descriptor pending on entry with a role closed once more and unpolled, and every other polled descriptor whose close count did not rise still polled |
| RelayLoop.Run | ezrelay.cpp:470-485 | unless listen fails the relay ends listening on the old or new control listener, and the poll round works on the relay the close pass left (`ClosePassed`); messages only accumulate; every descriptor pending on entry with a role has been closed once more, whatever the round does; without a poll round, or with a quiet one, the queue is empty and those descriptors are no longer polled |
| RelayLoop.StopThenRunLeaks | ezrelay.cpp:463-485 | after stopListening and run, the old control listener is still polled, never closed, and out of the queue |
| RelayClient.Init | ezrelayclient.cpp:7-15 | a new client targets "localhost" port 8000 with empty state |
| RelayClient.Visit | ezrelayclient.cpp:72-77 | visiting a queued key is a queue-and-close of it |
| RelayClient.ClosePass | ezrelayclient.cpp:71-78 | every visited key ends closed and the queue only advances |
| RelayClient.ClosePassAfter | ezrelayclient.cpp:71-78 | visiting distinct queued keys one at a time equals closing them all at once |
| RelayClient.ClosePassClosesAll | ezrelayclient.cpp:71-78 | in every iteration order the pass has the effect of closing every queued key at once |
| RelayClient.ProcessCloseQueue | ezrelayclient.cpp:70-80 | the queue ends empty, exactly the entries pending on entry leave the poll list (others keep their order), and each is closed once |
| RelayClient.RunHandler | ezrelayclient.cpp:82-110 | a control line whose first chunk parses to 0 opens nothing, a nonzero parse dials that port and polls one new descriptor; any other readable descriptor goes to the callback with nothing else changed; a hangup queues the descriptor; the client stops exactly on a control hangup or a failed dial of a nonzero port; no handler issues a close |
| RelayClient.Dispatch | ezrelayclient.cpp:155-157 | the round stops exactly when some snapshot entry from the start index on has a stopping event; when none does, the callback got exactly the readable non-control snapshot entries, in index order |
| RelayClient.DoPoll | ezrelayclient.cpp:147-160 | nothing is handled for an empty list or a non-positive poll count; otherwise the client stops exactly when a snapshot entry has a stopping event, and when it does not, the callback sees exactly the readable non-control entries of the snapshot in order |
| RelayClient.Run | ezrelayclient.cpp:206-216 | a disconnected client returns false and changes nothing; a connected client returns true unless the poll round ends the process, which happens exactly when an entry of the poll list left by the close pass has a stopping event; without a poll round, or with no descriptor left after the close pass, it returns with the queue empty and exactly the pending entries gone from the poll list; when a round follows and returns, the callback got exactly the readable non-control entries of that list |
| RelayClient.ControlHangupEndsRun | ezrelayclient.cpp:103-108 | a round that sees a hangup on the control connection ends `run` without a return value |
| RelayClient.RequestRelay | ezrelayclient.cpp:220-224 | the relay port is dialled; on success the connection becomes the control connection and is polled |
| RelayClient.RequestedConnectionIsControl | ezrelayclient.cpp:220-224 | on a client with no descriptors, a hangup on the connection requestRelay opened ends the next `run` |
| Protocol.AnnouncementDialled | ezrelayclient.cpp:85-98 | the port line acceptRequest sends, read in one chunk, makes the client dial exactly the announced backchannel port |
| Protocol.SplitAnnouncementMisdials | ezrelayclient.cpp:162-173 | a port line of two or more digits split after its first digit makes the client dial a one-digit port other than the announced one |

## Left out

- Operating-system calls: socket, bind, listen, getaddrinfo, accept, connect,
  splice, send, recv, poll, shutdown, close and getsockopt. Each is reduced to
  its abstract outcome, passed in as a parameter.
- Payload bytes and the `ezpipe` pipe. Only whether a splice moved more than
  0 bytes is modelled.
- getPortFromSocket, getAddressFromSocket and isConnected. The port is part of
  the `NewListener` outcome, and isConnected is the `connected` parameter of
  the client's `Run`.
- `sendString` failures. A send is recorded as a `Message`, whatever the
  system does with it.
- The logger, the verbose flag, the backlog size (and `setBacklogSize`),
  poll timeouts, and the trivial setters and getters of host name and ports.
- The launcher programs and the echo callback. The application's callback is
  recorded as the descriptor it was handed.
- The pipe failure in both constructors, and what `exit` does to the
  process. The client's `exit(1)` on losing its control connection becomes
  the result `Stopped(ControlLost, …)`.
- The descriptor numbers the system hands out, and their reuse.
- `comms_socket` before `listen` or `requestRelay`. The source leaves it
  uninitialised; the model starts it at -1.
- RelayLoop.ProcessCloseQueue: the model visits only the keys present on
  entry. Keys inserted during the loop are not visited. In the source,
  inserting into an `unordered_map` while range-iterating it may rehash and
  invalidate the iterator, so what it then visits is unspecified.
- RelayHandlers.RemoveClientListener: the cascade closes the matched tunnel
  sockets one by one, as it meets them. The model closes the set at once.
  `CascadeInAnyOrder` shows that issuing the calls one at a time, in any
  order, leaves the descriptors in the same state. The table erasures are
  not modelled one at a time. The contract does not state the final poll list
  beyond what `Advances` gives.
- RelayHandlers.RegisterRequest: the listener leaves the poll list only when
  its queue entry was not already marked closed. That is all closeConnection
  does.
- RelayHandlers.AcceptRequest: "no table changes on a failed accept" is
  stated for a listener present in `listener_client`. That is the only way
  runHandler calls it; otherwise the lookup inserts the listener with port 0.
- Text.ParseInt: only the "C" locale's white space and decimal digits are
  modelled. A value out of `int` range saturates, as extraction does since
  C++11.

=== FILE: client.dfy ===
/** `EZRelayClient`: the side that asks a relay for a public port. It keeps a
    poll list and a close queue, reads port lines from the relay on its control
    connection, dials each announced port, and hands every other readable
    descriptor to the application's callback. */
module RelayClient {
  import opened Tables
  import opened Text
  import opened Descriptors

  /** The client object. `callbacks` lists the descriptors handed to the
      application's callback, in order; `dials` lists the ports
      `connectToAddress` was called with, always on `hostname`. */
  datatype Client = Client(
    hostname: string,
    relayPort: int,
    commsSocket: int,
    fds: Fds,
    callbacks: seq<int>,
    dials: seq<int>)

  /** What the constructor leaves: relay "localhost" on port 8000. The control
      connection does not exist yet; -1 stands for its unset descriptor. */
  function Init(): (r: Client)
    ensures r.relayPort == 8000 && r.hostname == "localhost"
    ensures r.fds == NoFds && r.callbacks == [] && r.dials == []
  {
    Client("localhost", 8000, -1, NoFds, [], [])
  }

  /** Why the client stopped: `exit(1)` after losing the control connection,
      or the exception `connectToAddress` throws when setsockopt fails. */
  datatype Reason = ControlLost | ConnectFailed

  datatype ClientStep = Running(client: Client) | Stopped(reason: Reason, client: Client)

  /** What `connectToAddress` yields: a descriptor, or the exception. */
  datatype Connect = Connected(fd: int) | SetupFailed

  /** The answers to one handler's calls: what successive `recv` calls on the
      control connection return (the empty string for 0 or -1), and what the
      dial yields. */
  datatype ClientSyscalls = ClientSyscalls(received: seq<string>, connected: Connect)

  /** The close-queue entries not yet closed. */
  function PendingSet(st: Fds): (r: set<int>)
    ensures forall k :: k in r <==> Pending(st, k)
  {
    set k | k in st.closeQueue && !st.closeQueue[k]
  }

  /** One visit of processCloseQueue's loop: a closed entry is skipped, a
      pending one is closed. */
  function Visit(st: Fds, fd: int): (r: Fds)
    ensures fd in st.closeQueue ==> r == QueueAndClose(st, fd)
    ensures Advances(st, r)
  {
    var (closed, q) := SubscriptFlag(st.closeQueue, fd);
    var looked := st.(closeQueue := q);
    if closed then looked else CloseConnection(looked, fd)
  }

  /** The loop of processCloseQueue over the keys in the order `order`. */
  function ClosePass(st: Fds, order: seq<int>): (r: Fds)
    ensures Advances(st, r)
    ensures forall k :: k in order ==> Closed(r, k)
    decreases |order|
  {
    if order == [] then st
    else
      var next := Visit(st, order[0]);
      var r := ClosePass(next, order[1..]);
      AdvancesTransitive(st, next, r);
      r
  }

  /** Closing the entries `a` together and then visiting the rest one at a
      time closes all of them together. */
  lemma {:induction false} ClosePassAfter(st: Fds, a: set<int>, order: seq<int>)
    requires a <= st.closeQueue.Keys
    requires forall k :: k in order ==> k in st.closeQueue && k !in a
    requires forall i, j :: 0 <= i < j < |order| ==> order[i] != order[j]
    ensures ClosePass(CloseAll(st, a), order) == CloseAll(st, a + Members(order))
    decreases |order|
  {
    if order == [] {
      assert a + Members(order) == a;
    } else {
      var x := order[0];
      ClosePassStep(st, a, order);
      TailAvoids(a, order);
      ClosePassAfter(st, a + {x}, order[1..]);
      MembersCons(a, order);
    }
  }

  /** The first visit of the pass joins the closed set. */
  lemma ClosePassStep(st: Fds, a: set<int>, order: seq<int>)
    requires order != [] && order[0] in st.closeQueue && order[0] !in a
    ensures ClosePass(CloseAll(st, a), order) == ClosePass(CloseAll(st, a + {order[0]}), order[1..])
  {
    var mid := CloseAll(st, a);
    assert order[0] in mid.closeQueue;
    CloseAllSplit(st, a, order[0]);
  }

  lemma TailAvoids(a: set<int>, order: seq<int>)
    requires order != []
    requires forall k :: k in order ==> k !in a
    requires forall i, j :: 0 <= i < j < |order| ==> order[i] != order[j]
    ensures forall k :: k in order[1..] ==> k !in a + {order[0]}
    ensures forall i, j :: 0 <= i < j < |order[1..]| ==> order[1..][i] != order[1..][j]
  {
    forall k | k in order[1..]
      ensures k !in a + {order[0]}
    {
      var i :| 0 <= i < |order[1..]| && order[1..][i] == k;
      assert order[i + 1] == k;
    }
  }

  /** processCloseQueue: with the queue iterated in any order, every entry
      pending on entry is closed once and leaves the poll list, the other poll
      entries keep their order, and the queue ends empty. */
  function ProcessCloseQueue(st: Fds, order: seq<int>): (r: Fds)
    requires Enumerates(order, st.closeQueue.Keys)
    ensures r.closeQueue == map[]
    ensures r.pollSockets == WithoutAll(st.pollSockets, PendingSet(st))
    ensures r.closes == st.closes + multiset(PendingSet(st))
  {
    ClosePassClosesAll(st, order);
    assert NotYetClosed(st, st.closeQueue.Keys) == PendingSet(st);
    ClosePass(st, order).(closeQueue := map[])
  }

  /** Whatever the order, the pass has the effect of closing every key at once. */
  lemma ClosePassClosesAll(st: Fds, order: seq<int>)
    requires Enumerates(order, st.closeQueue.Keys)
    ensures ClosePass(st, order) == CloseAll(st, st.closeQueue.Keys)
  {
    var none: set<int> := {};
    assert ClosePass(CloseAll(st, none), order) == CloseAll(st, none + Members(order)) by {
      ClosePassAfter(st, none, order);
    }
    assert CloseAll(st, none) == st by {
      CloseAllNothing(st);
    }
    assert none + Members(order) == st.closeQueue.Keys by {
      EnumeratedMembers(order, st.closeQueue.Keys);
    }
  }

  /** runHandler: POLLIN is looked at before any hangup or error. On the
      control connection one line is read and its leading integer, if not 0,
      is dialled and the new connection polled. Any other readable descriptor
      goes to the callback. A hangup or error queues the descriptor for close
      and, on the control connection, ends the process. */
  function RunHandler(st: Client, fd: int, ready: Readiness, sys: ClientSyscalls): (r: ClientStep)
    ensures ready.readable && fd == st.commsSocket ==>
      var port := ParseInt(FirstChunk(sys.received));
      && (port == 0 ==> r == Running(st))
      && (port != 0 && sys.connected.SetupFailed? ==> r == Stopped(ConnectFailed, st.(dials := st.dials + [port])))
      && (port != 0 && sys.connected.Connected? ==>
            && r.Running?
            && r.client.fds.pollSockets == st.fds.pollSockets + [sys.connected.fd]
            && r.client.fds.closeQueue == st.fds.closeQueue
            && r.client.dials == st.dials + [port]
            && r.client.callbacks == st.callbacks)
    ensures ready.readable && fd != st.commsSocket ==>
      r == Running(st.(callbacks := st.callbacks + [fd]))
    ensures !ready.readable && ready.failed ==>
      && (r.Stopped? <==> fd == st.commsSocket)
      && (r.Stopped? ==> r.reason == ControlLost)
      && fd in r.client.fds.closeQueue
      && (forall k :: k in st.fds.closeQueue ==> k in r.client.fds.closeQueue && r.client.fds.closeQueue[k] == st.fds.closeQueue[k])
      && r.client.fds.pollSockets == st.fds.pollSockets
      && r.client.callbacks == st.callbacks
    ensures !ready.readable && !ready.failed ==> r == Running(st)
    ensures r.Stopped? <==> StopsOn(fd, ClientEvent(ready, sys), st.commsSocket)
    ensures r.client.commsSocket == st.commsSocket && r.client.hostname == st.hostname
    ensures r.client.fds.closes == st.fds.closes
  {
    if ready.readable then
      if fd == st.commsSocket then
        var (line, _) := ReadLine("", sys.received);
        ReadLineTakesFirstChunk("", sys.received);
        assert line == FirstChunk(sys.received);
        var port := ParseInt(line);
        if port == 0 then Running(st)
        else
          match sys.connected
          case SetupFailed => Stopped(ConnectFailed, st.(dials := st.dials + [port]))
          case Connected(newcon) =>
            Running(st.(fds := AddPollSocket(st.fds, newcon), dials := st.dials + [port]))
      else Running(st.(callbacks := st.callbacks + [fd]))
    else if ready.failed then
      var queued := st.(fds := AddToCloseQueue(st.fds, fd));
      if fd == st.commsSocket then Stopped(ControlLost, queued) else Running(queued)
    else Running(st)
  }

  /** What poll reports for one entry, with what the handler's calls answer. */
  datatype ClientEvent = ClientEvent(ready: Readiness, sys: ClientSyscalls)

  /** The events on which runHandler ends the process: on the control
      connection, a hangup or error, or a port line that is not 0 whose dial
      throws. */
  predicate StopsOn(fd: int, e: ClientEvent, comms: int) {
    && fd == comms
    && (if e.ready.readable then ParseInt(FirstChunk(e.sys.received)) != 0 && e.sys.connected.SetupFailed?
        else e.ready.failed)
  }

  /** The event of the `i`-th snapshot entry; past the given events, none. */
  function EventAt(events: seq<ClientEvent>, i: nat): ClientEvent {
    if i < |events| then events[i] else ClientEvent(Quiet, ClientSyscalls([], SetupFailed))
  }

  /** The snapshot entries from the `i`-th on that reach the callback: those
      reported readable that are not the control connection, in index order. */
  function Handed(snapshot: seq<int>, events: seq<ClientEvent>, comms: int, i: nat): (r: seq<int>)
    requires i <= |snapshot|
    ensures forall fd :: fd in r ==> fd in snapshot[i..] && fd != comms
    ensures |r| <= |snapshot| - i
    decreases |snapshot| - i
  {
    if i == |snapshot| then []
    else
      var rest := Handed(snapshot, events, comms, i + 1);
      assert forall fd :: fd in snapshot[i + 1..] ==> fd in snapshot[i..];
      if EventAt(events, i).ready.readable && snapshot[i] != comms then [snapshot[i]] + rest else rest
  }

  /** The handlers run in index order over the snapshot from the `i`-th entry
      on, until one stops the client. When none does, the callback has been
      given exactly the readable non-control entries, in order. */
  function Dispatch(st: Client, snapshot: seq<int>, events: seq<ClientEvent>, i: nat): (r: ClientStep)
    requires i <= |snapshot|
    ensures r.client.commsSocket == st.commsSocket
    ensures st.callbacks <= r.client.callbacks
    ensures r.Running? ==> r.client.callbacks == st.callbacks + Handed(snapshot, events, st.commsSocket, i)
    ensures r.Stopped? <==> exists j :: i <= j < |snapshot| && StopsOn(snapshot[j], EventAt(events, j), st.commsSocket)
    decreases |snapshot| - i
  {
    if i == |snapshot| then Running(st)
    else
      var e := EventAt(events, i);
      match RunHandler(st, snapshot[i], e.ready, e.sys)
      case Stopped(why, c) => Stopped(why, c)
      case Running(next) => Dispatch(next, snapshot, events, i + 1)
  }

  /** doPoll with runHandler as the callback, over a copy of the poll list,
      only when the list is non-empty and poll reported a positive count. */
  function DoPoll(st: Client, pollReads: int, events: seq<ClientEvent>): (r: ClientStep)
    ensures |st.fds.pollSockets| == 0 || pollReads <= 0 ==> r == Running(st)
    ensures |st.fds.pollSockets| > 0 && pollReads > 0 && r.Running? ==>
      r.client.callbacks == st.callbacks + Handed(st.fds.pollSockets, events, st.commsSocket, 0)
    ensures |st.fds.pollSockets| > 0 && pollReads > 0 ==>
      (r.Stopped? <==> exists j :: 0 <= j < |st.fds.pollSockets| && StopsOn(st.fds.pollSockets[j], EventAt(events, j), st.commsSocket))
  {
    var snapshot := st.fds.pollSockets;
    if |snapshot| > 0 && pollReads > 0 then Dispatch(st, snapshot, events, 0) else Running(st)
  }

  /** How a call of `run` ends: it returns its value, or the process ends
      inside it and nothing is returned. */
  datatype RunOutcome = Returned(value: bool, client: Client) | Ended(reason: Reason, client: Client)

  /** run: when `isConnected` says the control connection is down, false and
      nothing else; otherwise the close queue is processed and one poll round
      follows, after which true is returned unless the round ended the
      process. */
  function Run(st: Client, connected: bool, order: seq<int>, pollReads: int, events: seq<ClientEvent>): (r: RunOutcome)
    requires Enumerates(order, st.fds.closeQueue.Keys)
    ensures !connected ==> r == Returned(false, st)
    ensures r.Returned? ==> (r.value <==> connected)
    ensures r.Ended? ==> connected
    ensures
      var live := WithoutAll(st.fds.pollSockets, PendingSet(st.fds));
      connected && (pollReads <= 0 || |live| == 0) ==>
        && r.Returned?
        && r.client.fds.closeQueue == map[]
        && r.client.fds.pollSockets == live
    ensures
      var live := WithoutAll(st.fds.pollSockets, PendingSet(st.fds));
      connected && pollReads > 0 && |live| > 0 && r.Returned? ==>
        r.client.callbacks == st.callbacks + Handed(live, events, st.commsSocket, 0)
    ensures
      var live := WithoutAll(st.fds.pollSockets, PendingSet(st.fds));
      connected && pollReads > 0 && |live| > 0 ==>
        (r.Ended? <==> exists j :: 0 <= j < |live| && StopsOn(live[j], EventAt(events, j), st.commsSocket))
  {
    if !connected then Returned(false, st)
    else
      match DoPoll(st.(fds := ProcessCloseQueue(st.fds, order)), pollReads, events)
      case Running(c) => Returned(true, c)
      case Stopped(reason, c) => Ended(reason, c)
  }

  /** A round that hangs up on the control connection ends `run` without a
      return value, whatever else it saw. */
  lemma ControlHangupEndsRun(st: Client, order: seq<int>, sys: ClientSyscalls)
    requires Enumerates(order, st.fds.closeQueue.Keys)
    requires PendingSet(st.fds) == {} && st.fds.pollSockets == [st.commsSocket]
    ensures Run(st, true, order, 1, [ClientEvent(Readiness(false, true), sys)]).Ended?
  {
  }

  /** requestRelay: dial the relay's control port and poll the connection. */
  function RequestRelay(st: Client, connected: Connect): (r: ClientStep)
    ensures r.client.dials == st.dials + [st.relayPort]
    ensures connected.SetupFailed? ==> r.Stopped? && r.reason == ConnectFailed && r.client.fds == st.fds
    ensures connected.Connected? ==>
      && r.Running?
      && r.client.commsSocket == connected.fd
      && r.client.fds.pollSockets == st.fds.pollSockets + [connected.fd]
      && r.client.fds.closeQueue == st.fds.closeQueue
  {
    var dialled := st.(dials := st.dials + [st.relayPort]);
    match connected
    case SetupFailed => Stopped(ConnectFailed, dialled)
    case Connected(fd) => Running(dialled.(commsSocket := fd, fds := AddPollSocket(st.fds, fd)))
  }

  /** On a client with no descriptors yet, the connection requestRelay opens
      is the control connection: a hangup on it ends the next `run`. */
  lemma RequestedConnectionIsControl(st: Client, fd: int, sys: ClientSyscalls)
    requires st.fds == NoFds
    ensures
      var c := RequestRelay(st, Connected(fd)).client;
      Run(c, true, [], 1, [ClientEvent(Readiness(false, true), sys)]).Ended?
  {
    var c := RequestRelay(st, Connected(fd)).client;
    assert c.fds.pollSockets == [fd] && c.fds.closeQueue == map[];
    ControlHangupEndsRun(c, [], sys);
  }
}

=== FILE: fds.dfy ===
/** The descriptor bookkeeping the relay and the client share, written twice in
    the source with the same code: the list of polled descriptors, the close
    queue (descriptor -> already closed?) and the shutdown-and-close calls
    issued so far. What the operating system does with a descriptor is not
    modelled, only which calls are issued on it. */
module Descriptors {
  import opened Tables

  /** `closes` counts, per descriptor, the shutdown-and-close pairs issued. */
  datatype Fds = Fds(pollSockets: seq<int>, closeQueue: map<int, bool>, closes: multiset<int>)

  const NoFds := Fds([], map[], multiset{})

  /** The readiness `poll` reports for one entry: `readable` is POLLIN,
      `failed` is any of POLLHUP, POLLERR or POLLNVAL. */
  datatype Readiness = Readiness(readable: bool, failed: bool)

  const Quiet := Readiness(false, false)

  predicate Pending(st: Fds, fd: int) {
    fd in st.closeQueue && !st.closeQueue[fd]
  }

  predicate Closed(st: Fds, fd: int) {
    fd in st.closeQueue && st.closeQueue[fd]
  }

  /** `b` follows `a` by queue operations alone: entries are only added, a
      flag only goes from not-closed to closed, the poll list only loses
      entries, closes only accumulate, every descriptor newly marked closed
      was closed once more and is no longer polled, and a descriptor that was
      not closed again is still polled. */
  ghost predicate Advances(a: Fds, b: Fds) {
    && a.closeQueue.Keys <= b.closeQueue.Keys
    && (forall k :: Closed(a, k) ==> Closed(b, k))
    && (forall k :: k in b.pollSockets ==> k in a.pollSockets)
    && a.closes <= b.closes
    && (forall k :: Closed(b, k) && !Closed(a, k) ==> k !in b.pollSockets && b.closes[k] > a.closes[k])
    && (forall k :: k in a.pollSockets && b.closes[k] == a.closes[k] ==> k in b.pollSockets)
  }

  lemma AdvancesTransitive(a: Fds, b: Fds, c: Fds)
    requires Advances(a, b) && Advances(b, c)
    ensures Advances(a, c)
  {
  }

  /** addPollSocket: the descriptor is polled for input from now on. */
  function AddPollSocket(st: Fds, fd: int): (r: Fds)
    ensures r.pollSockets == st.pollSockets + [fd]
    ensures r.closeQueue == st.closeQueue && r.closes == st.closes
  {
    st.(pollSockets := st.pollSockets + [fd])
  }

  /** removePollSocket: every entry for `fd` leaves the poll list, every other
      entry stays with its multiplicity (and, by `WithoutConcat`, its order). */
  function RemovePollSocket(st: Fds, fd: int): (r: Fds)
    ensures fd !in r.pollSockets
    ensures forall y {:trigger multiset(r.pollSockets)[y]} :: y != fd ==>
      multiset(r.pollSockets)[y] == multiset(st.pollSockets)[y]
    ensures r.closeQueue == st.closeQueue && r.closes == st.closes
  {
    forall y | y != fd
      ensures multiset(Without(st.pollSockets, fd))[y] == multiset(st.pollSockets)[y]
    {
      WithoutKeepsOthers(st.pollSockets, fd, y);
    }
    st.(pollSockets := Without(st.pollSockets, fd))
  }

  /** Removing a descriptor right after adding it leaves the poll list as
      removing it alone would: the new entry goes and nothing else changes. */
  lemma AddThenRemovePollSocket(st: Fds, fd: int)
    ensures RemovePollSocket(AddPollSocket(st, fd), fd) == RemovePollSocket(st, fd)
  {
    WithoutConcat(st.pollSockets, [fd], fd);
    assert Without([fd], fd) == [];
  }

  /** addToCloseQueue: an absent descriptor is queued as not yet closed; an
      existing entry, closed or not, is left alone. */
  function AddToCloseQueue(st: Fds, fd: int): (r: Fds)
    ensures fd in r.closeQueue
    ensures fd in st.closeQueue ==> r == st
    ensures fd !in st.closeQueue ==> Pending(r, fd) && r == st.(closeQueue := st.closeQueue[fd := false])
    ensures Advances(st, r)
  {
    if fd in st.closeQueue then st else st.(closeQueue := st.closeQueue[fd := false])
  }

  /** closeConnection: acts only on a queued descriptor not yet closed; it then
      issues one shutdown-and-close, marks the entry closed and stops polling
      the descriptor. Afterwards the descriptor is never pending, so a second
      call changes nothing. */
  function CloseConnection(st: Fds, fd: int): (r: Fds)
    ensures !Pending(r, fd)
    ensures Pending(st, fd) ==>
      && Closed(r, fd)
      && r.closeQueue == st.closeQueue[fd := true]
      && r.closes == st.closes + multiset{fd}
      && r.pollSockets == RemovePollSocket(st, fd).pollSockets
    ensures !Pending(st, fd) ==> r == st
    ensures Advances(st, r)
  {
    if fd in st.closeQueue && !st.closeQueue[fd] then
      RemovePollSocket(st, fd).(closeQueue := st.closeQueue[fd := true], closes := st.closes + multiset{fd})
    else st
  }

  /** Queueing a descriptor twice is queueing it once. */
  lemma AddToCloseQueueIdempotent(st: Fds, fd: int)
    ensures AddToCloseQueue(AddToCloseQueue(st, fd), fd) == AddToCloseQueue(st, fd)
  {
  }

  /** Closing a descriptor twice issues one close. */
  lemma CloseConnectionIdempotent(st: Fds, fd: int)
    ensures CloseConnection(CloseConnection(st, fd), fd) == CloseConnection(st, fd)
  {
  }

  /** Queue-and-close, the pair of calls the relay always issues together. */
  function QueueAndClose(st: Fds, fd: int): (r: Fds)
    ensures Closed(r, fd)
    ensures Advances(st, r)
  {
    CloseConnection(AddToCloseQueue(st, fd), fd)
  }

  /** The close-queue entries `fds` marked closed, every other entry kept. */
  function MarkClosed(q: map<int, bool>, fds: set<int>): (r: map<int, bool>)
    ensures r.Keys == q.Keys + fds
    ensures forall k :: k in r ==> r[k] == (k in fds || q[k])
  {
    map k | k in q.Keys + fds :: if k in fds then true else q[k]
  }

  lemma MarkClosedOne(q: map<int, bool>, fd: int)
    ensures MarkClosed(q, {fd}) == q[fd := true]
  {
    var m := MarkClosed(q, {fd});
    assert m.Keys == q[fd := true].Keys;
    forall k | k in m
      ensures m[k] == q[fd := true][k]
    {
    }
  }

  lemma MarkClosedMore(q: map<int, bool>, a: set<int>, fd: int)
    ensures MarkClosed(q, a)[fd := true] == MarkClosed(q, a + {fd})
  {
    var m := MarkClosed(q, a)[fd := true];
    var n := MarkClosed(q, a + {fd});
    assert m.Keys == n.Keys;
    forall k | k in m
      ensures m[k] == n[k]
    {
    }
  }

  /** Whatever the entry was, queue-and-close leaves it marked closed and
      touches no other entry. */
  lemma QueueAndCloseMarks(st: Fds, fd: int)
    ensures QueueAndClose(st, fd).closeQueue == st.closeQueue[fd := true]
  {
    var q := AddToCloseQueue(st, fd);
    if fd in st.closeQueue && st.closeQueue[fd] {
      assert q == st && !Pending(q, fd);
      assert st.closeQueue[fd := true] == st.closeQueue;
    } else {
      assert Pending(q, fd);
      assert q.closeQueue[fd := true] == st.closeQueue[fd := true];
    }
  }

  /** The descriptors of `fds` whose queue-and-close would issue a close. */
  function NotYetClosed(st: Fds, fds: set<int>): (r: set<int>)
    ensures forall k :: k in r <==> k in fds && !Closed(st, k)
  {
    set k | k in fds && !Closed(st, k)
  }

  /** Queue-and-close applied to every descriptor of `fds`, as the cascade in
      removeClientListener does one descriptor at a time. The calls for
      different descriptors touch disjoint entries, so their net effect does
      not depend on the order: see `QueueAndCloseEachIsCloseAll`. */
  function CloseAll(st: Fds, fds: set<int>): (r: Fds)
    ensures forall k :: k in fds ==> Closed(r, k)
    ensures forall k :: k !in fds && k in st.closeQueue ==> k in r.closeQueue && r.closeQueue[k] == st.closeQueue[k]
    ensures Advances(st, r)
  {
    var newly := NotYetClosed(st, fds);
    st.(closeQueue := MarkClosed(st.closeQueue, fds),
        pollSockets := WithoutAll(st.pollSockets, newly),
        closes := st.closes + multiset(newly))
  }

  /** Nothing closed is nothing changed. */
  lemma CloseAllNothing(st: Fds)
    ensures CloseAll(st, {}) == st
  {
    var r := CloseAll(st, {});
    assert NotYetClosed(st, {}) == {};
    WithoutAllNothing(st.pollSockets);
    assert r.closeQueue == st.closeQueue;
  }

  /** Closing a one-element set is one queue-and-close. */
  lemma CloseAllSingleton(st: Fds, fd: int)
    ensures CloseAll(st, {fd}) == QueueAndClose(st, fd)
  {
    var c := CloseAll(st, {fd});
    var q := QueueAndClose(st, fd);
    SingletonFields(st, fd);
    assert c.closeQueue == q.closeQueue && c.pollSockets == q.pollSockets && c.closes == q.closes;
  }

  lemma SingletonFields(st: Fds, fd: int)
    ensures CloseAll(st, {fd}).closeQueue == QueueAndClose(st, fd).closeQueue
    ensures CloseAll(st, {fd}).pollSockets == QueueAndClose(st, fd).pollSockets
    ensures CloseAll(st, {fd}).closes == QueueAndClose(st, fd).closes
  {
    var newly := NotYetClosed(st, {fd});
    MarkClosedOne(st.closeQueue, fd);
    QueueAndCloseMarks(st, fd);
    if Closed(st, fd) {
      assert newly == {};
      WithoutAllNothing(st.pollSockets);
    } else {
      assert newly == {fd};
      assert Pending(AddToCloseQueue(st, fd), fd);
      WithoutAllSingleton(st.pollSockets, fd);
      assert multiset(newly) == multiset{fd};
    }
  }

  /** Closing `a` and then one more descriptor is closing `a + {fd}` at once. */
  lemma CloseAllSplit(st: Fds, a: set<int>, fd: int)
    requires fd !in a
    ensures QueueAndClose(CloseAll(st, a), fd) == CloseAll(st, a + {fd})
  {
    var lhs := QueueAndClose(CloseAll(st, a), fd);
    var rhs := CloseAll(st, a + {fd});
    SplitFields(st, a, fd);
    assert lhs.closeQueue == rhs.closeQueue && lhs.pollSockets == rhs.pollSockets && lhs.closes == rhs.closes;
  }

  /** Queue-and-close issued for each descriptor of `order`, one after the
      other. */
  function QueueAndCloseEach(st: Fds, order: seq<int>): (r: Fds)
    ensures forall k :: k in order ==> Closed(r, k)
    ensures Advances(st, r)
    decreases |order|
  {
    if order == [] then st
    else
      var next := QueueAndClose(st, order[0]);
      var r := QueueAndCloseEach(next, order[1..]);
      AdvancesTransitive(st, next, r);
      r
  }

  /** Issuing queue-and-close one descriptor at a time, in any order that
      lists each descriptor of `fds` once, ends in the state `CloseAll` gives. */
  lemma QueueAndCloseEachIsCloseAll(st: Fds, order: seq<int>, fds: set<int>)
    requires Enumerates(order, fds)
    ensures QueueAndCloseEach(st, order) == CloseAll(st, fds)
  {
    var none: set<int> := {};
    calc {
      QueueAndCloseEach(st, order);
      { CloseAllNothing(st); }
      QueueAndCloseEach(CloseAll(st, none), order);
      { QueueAndCloseEachAfter(st, none, order, fds); }
      CloseAll(st, none + fds);
      { assert none + fds == fds; }
      CloseAll(st, fds);
    }
  }

  /** Closing `a` at once and then the rest one at a time closes all of them
      at once. */
  lemma {:induction false} QueueAndCloseEachAfter(st: Fds, a: set<int>, order: seq<int>, fds: set<int>)
    requires Enumerates(order, fds) && a !! fds
    ensures QueueAndCloseEach(CloseAll(st, a), order) == CloseAll(st, a + fds)
    decreases |order|
  {
    if order == [] {
      assert forall k :: k in fds ==> k in order;
      assert fds == {};
      assert a + fds == a;
    } else {
      var x := order[0];
      var rest := fds - {x};
      assert x in fds;
      calc {
        QueueAndCloseEach(CloseAll(st, a), order);
        QueueAndCloseEach(QueueAndClose(CloseAll(st, a), x), order[1..]);
        { CloseAllSplit(st, a, x); }
        QueueAndCloseEach(CloseAll(st, a + {x}), order[1..]);
        { EnumeratesTail(order, fds);
          QueueAndCloseEachAfter(st, a + {x}, order[1..], rest); }
        CloseAll(st, a + {x} + rest);
        { assert a + {x} + rest == a + fds; }
        CloseAll(st, a + fds);
      }
    }
  }

  lemma SplitFields(st: Fds, a: set<int>, fd: int)
    requires fd !in a
    ensures QueueAndClose(CloseAll(st, a), fd).closeQueue == CloseAll(st, a + {fd}).closeQueue
    ensures QueueAndClose(CloseAll(st, a), fd).pollSockets == CloseAll(st, a + {fd}).pollSockets
    ensures QueueAndClose(CloseAll(st, a), fd).closes == CloseAll(st, a + {fd}).closes
  {
    var mid := CloseAll(st, a);
    MarkClosedMore(st.closeQueue, a, fd);
    QueueAndCloseMarks(mid, fd);
    SplitPollAndCloses(st, a, fd);
  }

  lemma SplitPollAndCloses(st: Fds, a: set<int>, fd: int)
    requires fd !in a
    ensures QueueAndClose(CloseAll(st, a), fd).pollSockets == CloseAll(st, a + {fd}).pollSockets
    ensures QueueAndClose(CloseAll(st, a), fd).closes == CloseAll(st, a + {fd}).closes
  {
    if Closed(st, fd) {
      SplitAlreadyClosed(st, a, fd);
    } else {
      var mid := CloseAll(st, a);
      assert !Closed(mid, fd);
      assert NotYetClosed(st, a + {fd}) == NotYetClosed(st, a) + {fd};
      SplitNewlyClosed(st, mid, NotYetClosed(st, a), NotYetClosed(st, a + {fd}), fd);
    }
  }

  lemma SplitAlreadyClosed(st: Fds, a: set<int>, fd: int)
    requires fd !in a && Closed(st, fd)
    ensures QueueAndClose(CloseAll(st, a), fd) == CloseAll(st, a)
    ensures NotYetClosed(st, a + {fd}) == NotYetClosed(st, a)
  {
    assert Closed(CloseAll(st, a), fd);
  }

  lemma SplitNewlyClosed(st: Fds, mid: Fds, newlyA: set<int>, newlyB: set<int>, fd: int)
    requires fd !in newlyA && newlyB == newlyA + {fd}
    requires mid == Fds(WithoutAll(st.pollSockets, newlyA), mid.closeQueue, st.closes + multiset(newlyA))
    requires !Closed(mid, fd)
    ensures QueueAndClose(mid, fd).pollSockets == WithoutAll(st.pollSockets, newlyB)
    ensures QueueAndClose(mid, fd).closes == st.closes + multiset(newlyB)
  {
    assert Pending(AddToCloseQueue(mid, fd), fd);
    WithoutAllAfter(st.pollSockets, newlyA, fd);
    assert multiset(newlyB) == multiset(newlyA) + multiset{fd};
  }

  lemma {:induction false} WithoutAllAfter(s: seq<int>, xs: set<int>, x: int)
    ensures Without(WithoutAll(s, xs), x) == WithoutAll(s, xs + {x})
    decreases |s|
  {
    if s != [] {
      WithoutAllAfter(s[1..], xs, x);
      var head := if s[0] in xs then [] else [s[0]];
      WithoutConcat(head, WithoutAll(s[1..], xs), x);
    }
  }
}

=== FILE: protocol.dfy ===
/** The control protocol seen from both ends: the port line the relay sends
    when an external peer arrives, and what the client does on reading it. */
module Protocol {
  import opened Text
  import opened Descriptors
  import opened RelayState
  import opened RelayHandlers
  import opened RelayClient

  predicate IsPort(p: int) {
    0 < p <= 0xffff
  }

  /** The line acceptRequest sends, received by the client in one piece,
      makes the client dial exactly the backchannel port and poll the new
      connection. */
  lemma AnnouncementDialled(relay: Relay, listener: int, sys: Syscalls, client: Client, newcon: int)
    requires sys.accepted != -1 && sys.listener.Bound? && IsPort(sys.listener.port)
    ensures
      var r := AcceptRequest(relay, listener, sys);
      && r.Done? && |r.relay.sent| == |relay.sent| + 1
      && var line := r.relay.sent[|relay.sent|].text;
      && var c := RelayClient.RunHandler(client, client.commsSocket, Readiness(true, false), ClientSyscalls([line], Connected(newcon)));
      && c.Running?
      && c.client.dials == client.dials + [sys.listener.port]
      && c.client.fds.pollSockets == client.fds.pollSockets + [newcon]
  {
    var r := AcceptRequest(relay, listener, sys);
    var line := r.relay.sent[|relay.sent|].text;
    assert line == Decimal(sys.listener.port) + "\n";
    ParseDecimal(sys.listener.port, "\n");
    assert FirstChunk([line]) == line;
  }

  /** A port line that arrives in two chunks, split after its first digit,
      makes the client dial the one-digit port it read, which is not the port
      the relay announced: readLine keeps only the first chunk. */
  lemma SplitAnnouncementMisdials(client: Client, newcon: int, port: int)
    requires 10 <= port <= 0xffff
    ensures
      var text := Decimal(port) + "\n";
      && IsDigit(text[0])
      && var dialled := DigitValue(text[0]);
      && dialled != port
      && var c := RelayClient.RunHandler(client, client.commsSocket, Readiness(true, false), ClientSyscalls([text[..1], text[1..]], Connected(newcon)));
      && c.Running?
      && c.client.dials == client.dials + [dialled]
  {
    var text := Decimal(port) + "\n";
    var first := text[..1];
    assert text[0] != '0';
    ParseUnsignedRun(first, first, []);
    assert first[..0] == [];
    assert Value(first) == DigitValue(text[0]);
    assert FirstChunk([first, text[1..]]) == first;
  }
}

=== FILE: relay_handlers.dfy ===
/** The relay's handlers: each turns one readiness event, and the answers the
    operating system gives to the calls it makes, into edits of the tables,
    the poll list and the close queue. */
module RelayHandlers {
  import opened Tables
  import opened Text
  import opened Descriptors
  import opened RelayState

  /** How many extra forwards the drain loop allows after a hangup. */
  const FlushLimit: nat := 10_000_000

  /** registerRequest: the client's backchannel connection arrived on a
      backchannel listener. On success the waiting peer socket and the new
      socket become a mutual tunnel pair, both are polled, and the listener,
      used once, is closed at once and leaves both request tables. When accept
      fails the exception is raised and only the two table reads have touched
      the state. */
  function RegisterRequest(st: Relay, listener: int, accepted: int): (r: Step)
    ensures r.Raised? <==> accepted == -1
    ensures r.Raised? ==>
      && r.fault == AcceptFailed(listener)
      && r.relay.fds == st.fds && r.relay.sent == st.sent
      && (listener in st.reg.listenerNewRequests && listener in st.reg.listenerNrPorts ==> r.relay == st)
    ensures r.Done? ==> Closed(r.relay.fds, listener) && r.relay.sent == st.sent
  {
    var (port, nrPorts) := Subscript(st.reg.listenerNrPorts, listener);
    var (peer, newRequests) := Subscript(st.reg.listenerNewRequests, listener);
    var looked := st.(reg := st.reg.(listenerNrPorts := nrPorts, listenerNewRequests := newRequests));
    if accepted == -1 then
      Raised(AcceptFailed(listener), looked)
    else
      Done(looked.(reg := PairUp(looked.reg, listener, port, peer, accepted),
                   fds := PollPair(looked.fds, listener, peer, accepted)))
  }

  /** The tables after a successful registerRequest: the waiting peer and
      the new socket are each other's tunnel partner, other tunnel entries
      are kept, the listener has left both request tables, the client tables
      are untouched, and `socket_ports` has changed only under the client's
      port, where the new socket is filed. */
  lemma RegisterRequestPairs(st: Relay, listener: int, accepted: int)
    requires accepted != -1
    ensures
      var peer := PeerOf(st.reg, listener);
      var port := RequestPortOf(st.reg, listener);
      var reg := RegisterRequest(st, listener, accepted).relay.reg;
      && accepted in reg.socketRequests && peer in reg.socketRequests
      && reg.socketRequests[peer] == accepted
      && reg.socketRequests[accepted] == peer
      && (forall k :: k in st.reg.socketRequests && k != accepted && k != peer ==>
            k in reg.socketRequests && reg.socketRequests[k] == st.reg.socketRequests[k])
      && listener !in reg.listenerNewRequests && listener !in reg.listenerNrPorts
      && reg.clientListeners == st.reg.clientListeners
      && reg.listenerClient == st.reg.listenerClient
      && reg.clientSocket == st.reg.clientSocket
      && reg.clientPorts == st.reg.clientPorts
      && port in reg.socketPorts && reg.socketPorts[port] == accepted
      && (forall k :: k != port ==> SocketPortOf(reg, k) == SocketPortOf(st.reg, k))
  {
    var (port, nrPorts) := Subscript(st.reg.listenerNrPorts, listener);
    var (peer, newRequests) := Subscript(st.reg.listenerNewRequests, listener);
    var looked := st.reg.(listenerNrPorts := nrPorts, listenerNewRequests := newRequests);
    assert RegisterRequest(st, listener, accepted).relay.reg == PairUp(looked, listener, port, peer, accepted);
  }

  /** The descriptors after a successful registerRequest: the peer and the
      new socket are appended to the poll list, and the listener is closed;
      unless it was closed already, that issues one close and takes every
      entry for it out of the poll list. */
  lemma RegisterRequestPolls(st: Relay, listener: int, accepted: int)
    requires accepted != -1
    ensures
      var peer := PeerOf(st.reg, listener);
      var fds := RegisterRequest(st, listener, accepted).relay.fds;
      var polled := st.fds.pollSockets + [peer, accepted];
      && Closed(fds, listener)
      && fds.closeQueue == st.fds.closeQueue[listener := true]
      && (Closed(st.fds, listener) ==> fds.pollSockets == polled && fds.closes == st.fds.closes)
      && (!Closed(st.fds, listener) ==>
            fds.pollSockets == Without(polled, listener) && fds.closes == st.fds.closes + multiset{listener})
  {
    var peer := PeerOf(st.reg, listener);
    assert RegisterRequest(st, listener, accepted).relay.fds == PollPair(st.fds, listener, peer, accepted);
  }

  /** The table edits of a successful registerRequest. */
  function PairUp(reg: Registry, listener: int, port: int, peer: int, accepted: int): (r: Registry)
    ensures accepted in r.socketRequests && peer in r.socketRequests
    ensures r.socketRequests[peer] == accepted
    ensures r.socketRequests[accepted] == peer
    ensures forall k :: k in reg.socketRequests && k != accepted && k != peer ==>
      k in r.socketRequests && r.socketRequests[k] == reg.socketRequests[k]
    ensures listener !in r.listenerNewRequests && listener !in r.listenerNrPorts
    ensures r.listenerNewRequests == reg.listenerNewRequests - {listener}
    ensures r.listenerNrPorts == reg.listenerNrPorts - {listener}
    ensures r.clientListeners == reg.clientListeners && r.listenerClient == reg.listenerClient
    ensures r.clientSocket == reg.clientSocket && r.clientPorts == reg.clientPorts
    ensures port in r.socketPorts && r.socketPorts[port] == accepted
    ensures forall k :: k != port ==> SocketPortOf(r, k) == SocketPortOf(reg, k)
  {
    reg.(
      // the first of these two writes is overwritten at once
      socketPorts := reg.socketPorts[port := peer][port := accepted],
      socketRequests := reg.socketRequests[accepted := peer][peer := accepted],
      listenerNewRequests := reg.listenerNewRequests - {listener},
      listenerNrPorts := reg.listenerNrPorts - {listener})
  }

  /** The descriptor edits of a successful registerRequest: both tunnel
      members are appended to the poll list and the listener is queued and
      closed. */
  function PollPair(fds: Fds, listener: int, peer: int, accepted: int): (r: Fds)
    ensures Closed(r, listener)
    ensures r.closeQueue == fds.closeQueue[listener := true]
    ensures Closed(fds, listener) ==>
      r.pollSockets == fds.pollSockets + [peer, accepted] && r.closes == fds.closes
    ensures !Closed(fds, listener) ==>
      && r.pollSockets == Without(fds.pollSockets + [peer, accepted], listener)
      && r.closes == fds.closes + multiset{listener}
  {
    var polled := AddPollSocket(AddPollSocket(fds, peer), accepted);
    assert polled.pollSockets == fds.pollSockets + [peer, accepted];
    QueueAndCloseMarks(polled, listener);
    assert !Closed(fds, listener) ==> Pending(AddToCloseQueue(polled, listener), listener);
    QueueAndClose(polled, listener)
  }

  /** addClientListener: a new client listener on an ephemeral port; the port
      and the listener are recorded as inverses of each other, the port joins
      the client ports and the listener is polled. */
  function AddClientListener(st: Relay, listener: int, port: int): (r: Relay)
    ensures listener in r.reg.listenerClient && r.reg.listenerClient[listener] == port
    ensures port in r.reg.clientListeners && r.reg.clientListeners[port] == listener
    ensures r.reg.clientPorts == st.reg.clientPorts + [port]
    ensures r.fds.pollSockets == st.fds.pollSockets + [listener]
    ensures r.fds.closeQueue == st.fds.closeQueue && r.sent == st.sent
    ensures r.reg.socketRequests == st.reg.socketRequests && r.reg.clientSocket == st.reg.clientSocket
    ensures forall l :: l in st.reg.listenerClient && l != listener ==>
      l in r.reg.listenerClient && r.reg.listenerClient[l] == st.reg.listenerClient[l]
    ensures forall p :: p in st.reg.clientListeners && p != port ==>
      p in r.reg.clientListeners && r.reg.clientListeners[p] == st.reg.clientListeners[p]
    ensures r.reg.listenerClient.Keys == st.reg.listenerClient.Keys + {listener}
    ensures r.reg.clientListeners.Keys == st.reg.clientListeners.Keys + {port}
    ensures r.fds.closes == st.fds.closes
    ensures r.reg.socketPorts == st.reg.socketPorts
    ensures r.reg.listenerNewRequests == st.reg.listenerNewRequests && r.reg.listenerNrPorts == st.reg.listenerNrPorts
  {
    st.(reg := st.reg.(clientPorts := st.reg.clientPorts + [port],
                       clientListeners := st.reg.clientListeners[port := listener],
                       listenerClient := st.reg.listenerClient[listener := port]),
        fds := AddPollSocket(st.fds, listener))
  }

  /** acceptClient: a new client on the control listener. Nothing happens when
      the relay is not listening or accept fails. Otherwise the client gets a
      listener of its own, the control connection is recorded under the
      listener's port, and the client is told `<hostname>:<port>\n`. */
  function AcceptClient(st: Relay, sys: Syscalls): (r: Step)
    ensures !st.isListening || sys.accepted == -1 ==> r == Done(st)
    ensures st.isListening && sys.accepted != -1 && sys.listener.SetupFailed? ==>
      r == Raised(ListenerSetupFailed, st)
    ensures st.isListening && sys.accepted != -1 && sys.listener.Bound? ==>
      var listener := sys.listener.fd;
      var port := sys.listener.port;
      var reg := r.relay.reg;
      && r.Done?
      && listener in reg.listenerClient && reg.listenerClient[listener] == port
      && port in reg.clientListeners && reg.clientListeners[port] == listener
      && port in reg.clientSocket && reg.clientSocket[port] == sys.accepted
      && reg.clientPorts == st.reg.clientPorts + [port]
      && r.relay.fds.pollSockets == st.fds.pollSockets + [listener]
      && r.relay.fds.closeQueue == st.fds.closeQueue
      && r.relay.sent == st.sent + [Message(sys.accepted, st.hostname + ":" + Decimal(port) + "\n")]
      && reg.socketRequests == st.reg.socketRequests
      && reg.listenerNewRequests == st.reg.listenerNewRequests
      && reg.listenerNrPorts == st.reg.listenerNrPorts
      && reg.socketPorts == st.reg.socketPorts
    ensures st.isListening && sys.accepted != -1 && sys.listener.Bound? ==>
      var listener := sys.listener.fd;
      var port := sys.listener.port;
      var reg := r.relay.reg;
      && (forall l :: l in st.reg.listenerClient && l != listener ==>
            l in reg.listenerClient && reg.listenerClient[l] == st.reg.listenerClient[l])
      && (forall p :: p in st.reg.clientListeners && p != port ==>
            p in reg.clientListeners && reg.clientListeners[p] == st.reg.clientListeners[p])
      && (forall p :: p in st.reg.clientSocket && p != port ==>
            p in reg.clientSocket && reg.clientSocket[p] == st.reg.clientSocket[p])
      && reg.listenerClient.Keys == st.reg.listenerClient.Keys + {listener}
      && reg.clientListeners.Keys == st.reg.clientListeners.Keys + {port}
      && reg.clientSocket.Keys == st.reg.clientSocket.Keys + {port}
    ensures r.relay.fds.closes == st.fds.closes
  {
    if !st.isListening || sys.accepted == -1 then Done(st)
    else
      match sys.listener
      case SetupFailed => Raised(ListenerSetupFailed, st)
      case Bound(listener, port) =>
        var added := AddClientListener(st, listener, port);
        var (portnum, lc) := Subscript(added.reg.listenerClient, listener);
        var text := st.hostname + ":" + Decimal(portnum) + "\n";
        Done(added.(reg := added.reg.(listenerClient := lc,
                                      clientSocket := added.reg.clientSocket[portnum := sys.accepted]),
                    sent := added.sent + [Message(sys.accepted, text)]))
  }

  /** acceptClient keeps `listener_client` and `client_listeners` inverse when
      the system hands out a listener descriptor and a port that are not in
      use. */
  lemma AcceptClientKeepsInverse(st: Relay, sys: Syscalls)
    requires Inverse(st.reg)
    requires sys.listener.Bound? ==>
      sys.listener.fd !in st.reg.listenerClient && sys.listener.port !in st.reg.clientListeners
    ensures Inverse(AcceptClient(st, sys).relay.reg)
  {
  }

  /** registerRequest keeps the tunnel table symmetric when neither new member
      is already a tunnel member. */
  lemma RegisterRequestKeepsSymmetric(st: Relay, listener: int, accepted: int)
    requires Symmetric(st.reg.socketRequests)
    requires accepted !in st.reg.socketRequests && PeerOf(st.reg, listener) !in st.reg.socketRequests
    ensures Symmetric(RegisterRequest(st, listener, accepted).relay.reg.socketRequests)
  {
    if accepted != -1 {
      var peer := PeerOf(st.reg, listener);
      var pairs := RegisterRequest(st, listener, accepted).relay.reg.socketRequests;
      var (port, nrPorts) := Subscript(st.reg.listenerNrPorts, listener);
      var (p, newRequests) := Subscript(st.reg.listenerNewRequests, listener);
      var looked := st.reg.(listenerNrPorts := nrPorts, listenerNewRequests := newRequests);
      assert pairs == st.reg.socketRequests[accepted := peer][peer := accepted] by {
        assert pairs == PairUp(looked, listener, port, peer, accepted).socketRequests;
      }
      SymmetricWith(st.reg.socketRequests, accepted, peer);
    }
  }

  /** The tunnel entries the cascade of removeClientListener tears down: those
      whose `socket_ports` lookup, keyed by the tunnel's socket, yields `port`. */
  function TunnelsOf(reg: Registry, port: int): (r: set<int>)
    ensures forall k :: k in r <==> k in reg.socketRequests && SocketPortOf(reg, k) == port
  {
    set k | k in reg.socketRequests && SocketPortOf(reg, k) == port
  }

  /** removeClientListener: the client's listener is closed and unregistered,
      every tunnel entry whose `socket_ports` lookup gives the client's port is
      closed and erased, and the control connection is closed and forgotten
      together with the port. Since `socket_ports` is filled keyed by port, the
      lookup keyed by socket reads 0 or an unrelated value, and it inserts 0 for
      every tunnel socket it misses. */
  function RemoveClientListener(st: Relay, listener: int): (r: Relay)
    ensures Closed(r.fds, listener)
    ensures Advances(st.fds, r.fds) && r.sent == st.sent
  {
    var port := PortOf(st.reg, listener);
    var unlisted := Unlist(st, listener);
    var swept := Cascade(unlisted, port);
    var r := DropControl(swept, port);
    AdvancesTransitive(st.fds, unlisted.fds, swept.fds);
    AdvancesTransitive(st.fds, swept.fds, r.fds);
    r
  }

  /** The first steps of removeClientListener: the listener's port is read
      (inserting 0 on a miss), the listener is queued and closed, and it
      leaves both client tables, the miss entry included. */
  function Unlist(st: Relay, listener: int): (r: Relay)
    ensures r.reg.listenerClient == st.reg.listenerClient - {listener}
    ensures r.reg.clientListeners == st.reg.clientListeners - {PortOf(st.reg, listener)}
    ensures r.reg == st.reg.(listenerClient := r.reg.listenerClient, clientListeners := r.reg.clientListeners)
    ensures Closed(r.fds, listener) && Advances(st.fds, r.fds) && r.sent == st.sent
  {
    var (port, lc) := Subscript(st.reg.listenerClient, listener);
    st.(reg := st.reg.(listenerClient := lc - {listener},
                       clientListeners := st.reg.clientListeners - {port}),
        fds := QueueAndClose(st.fds, listener))
  }

  /** After removeClientListener the client is forgotten: the listener is no
      key of `listener_client`, its port is in none of `client_listeners`,
      `client_socket` and `client_ports`, the other client listeners keep
      their entries, and both request tables are untouched. */
  lemma RemoveClientListenerForgets(st: Relay, listener: int)
    ensures
      var port := PortOf(st.reg, listener);
      var reg := RemoveClientListener(st, listener).reg;
      && listener !in reg.listenerClient
      && port !in reg.clientListeners
      && port !in reg.clientSocket
      && port !in reg.clientPorts
      && reg.listenerClient == st.reg.listenerClient - {listener}
      && reg.clientListeners == st.reg.clientListeners - {port}
      && reg.listenerNewRequests == st.reg.listenerNewRequests
      && reg.listenerNrPorts == st.reg.listenerNrPorts
  {
    var port := PortOf(st.reg, listener);
    assert RemoveClientListener(st, listener) == DropControl(Cascade(Unlist(st, listener), port), port);
  }

  /** What removeClientListener closes: the listener, the control connection
      filed under its port, and every tunnel entry the cascade matches, which
      also leaves `socket_requests`. */
  lemma RemoveClientListenerCloses(st: Relay, listener: int)
    ensures
      var port := PortOf(st.reg, listener);
      var r := RemoveClientListener(st, listener);
      && Closed(r.fds, ControlOf(st.reg, port))
      && (forall k :: k in TunnelsOf(st.reg, port) ==> k !in r.reg.socketRequests && Closed(r.fds, k))
  {
    var port := PortOf(st.reg, listener);
    var swept := Cascade(Unlist(st, listener), port);
    UnlistKeepsTunnels(st, listener);
    assert RemoveClientListener(st, listener) == DropControl(swept, port);
    assert ControlOf(swept.reg, port) == ControlOf(st.reg, port);
  }

  /** The tunnel entries the cascade does not match stay, each with a
      `socket_ports` entry. */
  lemma RemoveClientListenerKeeps(st: Relay, listener: int)
    ensures
      var port := PortOf(st.reg, listener);
      var r := RemoveClientListener(st, listener);
      forall k :: k in st.reg.socketRequests && k !in TunnelsOf(st.reg, port) ==>
        && k in r.reg.socketRequests && r.reg.socketRequests[k] == st.reg.socketRequests[k]
        && k in r.reg.socketPorts
  {
    var port := PortOf(st.reg, listener);
    var swept := Cascade(Unlist(st, listener), port);
    UnlistKeepsTunnels(st, listener);
    assert RemoveClientListener(st, listener) == DropControl(swept, port);
    var r := DropControl(swept, port);
    assert r.reg.socketRequests == swept.reg.socketRequests && r.reg.socketPorts == swept.reg.socketPorts;
  }

  /** Unlisting the client listener leaves the tunnel tables alone, so the
      cascade matches the tunnel entries it would have matched on entry. */
  lemma UnlistKeepsTunnels(st: Relay, listener: int)
    ensures
      var u := Unlist(st, listener);
      && u.reg.socketRequests == st.reg.socketRequests
      && u.reg.socketPorts == st.reg.socketPorts
      && TunnelsOf(u.reg, PortOf(st.reg, listener)) == TunnelsOf(st.reg, PortOf(st.reg, listener))
  {
  }

  /** removeClientListener keeps `listener_client` and `client_listeners`
      inverse. Its one caller, processCloseQueue, calls it only for a key of
      `listener_client`; for any other descriptor the insert-on-miss read
      yields port 0 and would unfile whichever listener owns port 0. */
  /** removeClientListener keeps the relay's configuration, and a descriptor
      that had a role either keeps one or has been closed. */
  lemma RemoveClientListenerRoles(st: Relay, listener: int)
    requires listener in st.reg.listenerClient
    ensures
      var r := RemoveClientListener(st, listener);
      && Keeps(st, r)
      && forall k :: HasRole(st.reg, k) ==> HasRole(r.reg, k) || Closed(r.fds, k)
  {
    var port := PortOf(st.reg, listener);
    var r := RemoveClientListener(st, listener);
    assert r == DropControl(Cascade(Unlist(st, listener), port), port);
    RemoveClientListenerForgets(st, listener);
    RemoveClientListenerCloses(st, listener);
    RemoveClientListenerKeeps(st, listener);
  }

  lemma RemoveClientListenerKeepsInverse(st: Relay, listener: int)
    requires Inverse(st.reg) && listener in st.reg.listenerClient
    ensures Inverse(RemoveClientListener(st, listener).reg)
  {
    var reg := RemoveClientListener(st, listener).reg;
    assert reg.listenerClient == st.reg.listenerClient - {listener}
        && reg.clientListeners == st.reg.clientListeners - {st.reg.listenerClient[listener]} by {
      RemoveClientListenerForgets(st, listener);
    }
    InversesWithout(st.reg.listenerClient, st.reg.clientListeners, listener);
  }

  /** The cascade erases only the matched entry of a tunnel pair: when one
      member matches the client's port and its partner does not, the partner
      is left naming a member that is no longer registered, and the tunnel
      table stops being symmetric. */
  lemma RemoveClientListenerBreaksSymmetry(st: Relay, listener: int, k: int)
    requires Symmetric(st.reg.socketRequests)
    requires k in TunnelsOf(st.reg, PortOf(st.reg, listener))
    requires st.reg.socketRequests[k] !in TunnelsOf(st.reg, PortOf(st.reg, listener))
    ensures !Symmetric(RemoveClientListener(st, listener).reg.socketRequests)
  {
    var partner := st.reg.socketRequests[k];
    var after := RemoveClientListener(st, listener).reg.socketRequests;
    RemoveClientListenerCloses(st, listener);
    RemoveClientListenerKeeps(st, listener);
    assert partner in after && after[partner] == k && k !in after;
  }

  /** The loop of removeClientListener over `socket_requests`: every entry
      whose `socket_ports` lookup gives `port` is closed and erased from both
      tables, every other entry stays, and each lookup of a missing key has
      left a 0 in `socket_ports`. */
  function Cascade(st: Relay, port: int): (r: Relay)
    ensures forall k :: k in TunnelsOf(st.reg, port) ==> k !in r.reg.socketRequests && Closed(r.fds, k)
    ensures forall k :: k in st.reg.socketRequests && k !in TunnelsOf(st.reg, port) ==>
      && k in r.reg.socketRequests && r.reg.socketRequests[k] == st.reg.socketRequests[k]
      && k in r.reg.socketPorts
    ensures r.reg == st.reg.(socketPorts := r.reg.socketPorts, socketRequests := r.reg.socketRequests)
    ensures Advances(st.fds, r.fds) && r.sent == st.sent
  {
    var matched := TunnelsOf(st.reg, port);
    st.(reg := st.reg.(socketPorts := SubscriptAll(st.reg.socketPorts, st.reg.socketRequests.Keys) - matched,
                       socketRequests := st.reg.socketRequests - matched),
        fds := CloseAll(st.fds, matched))
  }

  /** The cascade issues queue-and-close for each matched entry as the
      iteration over `socket_requests` meets it; whatever that order, the
      descriptors end as `Cascade` leaves them. */
  lemma CascadeInAnyOrder(st: Relay, port: int, order: seq<int>)
    requires Enumerates(order, TunnelsOf(st.reg, port))
    ensures QueueAndCloseEach(st.fds, order) == Cascade(st, port).fds
  {
    QueueAndCloseEachIsCloseAll(st.fds, order, TunnelsOf(st.reg, port));
  }

  /** The end of removeClientListener: the control connection filed under
      `port` is closed and the port is forgotten. */
  function DropControl(st: Relay, port: int): (r: Relay)
    ensures Closed(r.fds, ControlOf(st.reg, port))
    ensures port !in r.reg.clientSocket && port !in r.reg.clientPorts
    ensures r.reg == st.reg.(clientSocket := r.reg.clientSocket, clientPorts := r.reg.clientPorts)
    ensures Advances(st.fds, r.fds) && r.sent == st.sent
  {
    var (control, cs) := Subscript(st.reg.clientSocket, port);
    st.(reg := st.reg.(clientSocket := cs - {port}, clientPorts := Without(st.reg.clientPorts, port)),
        fds := QueueAndClose(st.fds, control))
  }

  /** The cascade of removeClientListener misses a tunnel it should tear
      down: registerRequest files the new socket under the client's port in
      `socket_ports`, but the cascade looks the socket itself up there, so the
      tunnel stays registered after its client is removed. */
  lemma CascadeMissesTunnel(st: Relay, backchannel: int, accepted: int, clientListener: int)
    requires accepted != -1
    requires accepted != RequestPortOf(st.reg, backchannel)
    requires SocketPortOf(st.reg, accepted) != RequestPortOf(st.reg, backchannel)
    requires PortOf(RegisterRequest(st, backchannel, accepted).relay.reg, clientListener) == RequestPortOf(st.reg, backchannel)
    ensures
      var paired := RegisterRequest(st, backchannel, accepted).relay;
      && accepted in paired.reg.socketRequests
      && accepted in RemoveClientListener(paired, clientListener).reg.socketRequests
  {
    var paired := RegisterRequest(st, backchannel, accepted).relay;
    RegisterRequestPairs(st, backchannel, accepted);
    assert accepted !in TunnelsOf(paired.reg, RequestPortOf(st.reg, backchannel));
    RemoveClientListenerKeeps(paired, clientListener);
  }

  /** acceptRequest: an external peer connected to a client listener. On
      success a backchannel listener is opened and polled, it remembers the
      peer socket and the client's port, and the client's control connection
      is told the backchannel port as `<port>\n`. A failed accept changes no
      table (beyond the insert-on-miss read of the listener's port). */
  function AcceptRequest(st: Relay, listener: int, sys: Syscalls): (r: Step)
    ensures sys.accepted == -1 ==>
      && r.Done? && r.relay.fds == st.fds && r.relay.sent == st.sent
      && (listener in st.reg.listenerClient ==> r.relay == st)
    ensures sys.accepted != -1 && sys.listener.SetupFailed? ==>
      r.Raised? && r.fault == ListenerSetupFailed && r.relay.fds == st.fds && r.relay.sent == st.sent
    ensures sys.accepted != -1 && sys.listener.Bound? ==>
      var backchannel := sys.listener.fd;
      var port := PortOf(st.reg, listener);
      var reg := r.relay.reg;
      && r.Done?
      && backchannel in reg.listenerNewRequests && reg.listenerNewRequests[backchannel] == sys.accepted
      && backchannel in reg.listenerNrPorts && reg.listenerNrPorts[backchannel] == port
      && r.relay.fds.pollSockets == st.fds.pollSockets + [backchannel]
      && r.relay.fds.closeQueue == st.fds.closeQueue
      && r.relay.sent == st.sent + [Message(ControlOf(st.reg, port), Decimal(sys.listener.port) + "\n")]
      && reg.socketRequests == st.reg.socketRequests
      && reg.clientListeners == st.reg.clientListeners
      && reg.socketPorts == st.reg.socketPorts
      && reg.clientPorts == st.reg.clientPorts
    ensures sys.accepted != -1 && sys.listener.Bound? ==>
      var backchannel := sys.listener.fd;
      var reg := r.relay.reg;
      && (forall l :: l in st.reg.listenerNewRequests && l != backchannel ==>
            l in reg.listenerNewRequests && reg.listenerNewRequests[l] == st.reg.listenerNewRequests[l])
      && (forall l :: l in st.reg.listenerNrPorts && l != backchannel ==>
            l in reg.listenerNrPorts && reg.listenerNrPorts[l] == st.reg.listenerNrPorts[l])
      && (forall l :: l in st.reg.listenerClient ==>
            l in reg.listenerClient && reg.listenerClient[l] == st.reg.listenerClient[l])
      && (forall p :: p in st.reg.clientSocket ==>
            p in reg.clientSocket && reg.clientSocket[p] == st.reg.clientSocket[p])
      && reg.listenerNewRequests.Keys == st.reg.listenerNewRequests.Keys + {backchannel}
      && reg.listenerNrPorts.Keys == st.reg.listenerNrPorts.Keys + {backchannel}
      && reg.listenerClient.Keys == st.reg.listenerClient.Keys + {listener}
      && reg.clientSocket.Keys == st.reg.clientSocket.Keys + {PortOf(st.reg, listener)}
    ensures r.relay.fds.closes == st.fds.closes
  {
    var (port, lc) := Subscript(st.reg.listenerClient, listener);
    var looked := st.(reg := st.reg.(listenerClient := lc));
    if sys.accepted == -1 then Done(looked)
    else
      var (control, cs) := Subscript(looked.reg.clientSocket, port);
      var known := looked.(reg := looked.reg.(clientSocket := cs));
      match sys.listener
      case SetupFailed => Raised(ListenerSetupFailed, known)
      case Bound(backchannel, backchannelPort) =>
        Done(known.(
          reg := known.reg.(listenerNewRequests := known.reg.listenerNewRequests[backchannel := sys.accepted],
                            listenerNrPorts := known.reg.listenerNrPorts[backchannel := port]),
          fds := AddPollSocket(known.fds, backchannel),
          sent := known.sent + [Message(control, Decimal(backchannelPort) + "\n")]))
  }

  /** forwardRequest, by outcome only: `moved` is the byte count the splice
      from the readable side returned. It reports true exactly when bytes
      moved; otherwise both ends are queued for close. */
  function ForwardRequest(st: Relay, from: int, to: int, moved: int): (r: (Relay, bool))
    ensures r.1 <==> moved > 0
    ensures r.1 ==> r.0 == st
    ensures !r.1 ==>
      && r.0.reg == st.reg && r.0.sent == st.sent
      && r.0.fds.pollSockets == st.fds.pollSockets && r.0.fds.closes == st.fds.closes
      && r.0.fds.closeQueue.Keys == st.fds.closeQueue.Keys + {from, to}
      && (forall k :: k in st.fds.closeQueue ==> r.0.fds.closeQueue[k] == st.fds.closeQueue[k])
      && (forall k :: k in {from, to} && k !in st.fds.closeQueue ==> Pending(r.0.fds, k))
  {
    if moved > 0 then (st, true)
    else (st.(fds := AddToCloseQueue(AddToCloseQueue(st.fds, from), to)), false)
  }

  /** The state after a forward that found the stream exhausted. */
  function BothQueued(st: Relay, from: int, to: int): Relay {
    ForwardRequest(st, from, to, 0).0
  }

  /** The drain loop of runHandler from its `i`-th forward on, with `limit`
      decrements left: forward, stop when nothing moved, stop when the limit
      is used up, otherwise decrement and go on. The result pairs the state
      with the number of forwards made. At most `limit + 1` forwards are made,
      all but the last moved bytes, and the loop stops early only on a forward
      that moved nothing, which queues both ends. */
  function DrainFrom(st: Relay, from: int, to: int, spliced: seq<int>, i: nat, limit: nat): (r: (Relay, nat))
    ensures 1 <= r.1 <= limit + 1
    ensures forall j :: i <= j < i + r.1 - 1 ==> SpliceAt(spliced, j) > 0
    ensures r.1 <= limit ==> SpliceAt(spliced, i + r.1 - 1) <= 0
    ensures SpliceAt(spliced, i + r.1 - 1) <= 0 ==> r.0 == BothQueued(st, from, to)
    ensures SpliceAt(spliced, i + r.1 - 1) > 0 ==> r.0 == st
    decreases limit
  {
    var (next, moved) := ForwardRequest(st, from, to, SpliceAt(spliced, i));
    if !moved || limit == 0 then (next, 1)
    else
      var (last, calls) := DrainFrom(next, from, to, spliced, i + 1, limit - 1);
      (last, calls + 1)
  }

  /** The drain after a hangup on a tunnel member: at most FLUSH_LIMIT + 1
      forwards. */
  function Drain(st: Relay, from: int, to: int, spliced: seq<int>): (r: (Relay, nat))
    ensures 1 <= r.1 <= FlushLimit + 1
    ensures r.0 == st || r.0 == BothQueued(st, from, to)
  {
    DrainFrom(st, from, to, spliced, 0, FlushLimit)
  }

  /** The roles runHandler tries for a readable descriptor, in its order. */
  datatype Role = ControlListener | BackchannelListener | ClientListener | TunnelMember | Unknown

  /** The first role, in runHandler's order, that `fd` has. */
  function RoleOf(st: Relay, fd: int): Role {
    if fd == st.commsSocket then ControlListener
    else if fd in st.reg.listenerNewRequests then BackchannelListener
    else if fd in st.reg.listenerClient then ClientListener
    else if fd in st.reg.socketRequests then TunnelMember
    else Unknown
  }

  /** runHandler: POLLIN is looked at before any hangup or error. A readable
      descriptor goes to the handler of its first role; one with no role is
      queued for close. A hangup on the control listener raises; on a tunnel
      member the pending bytes are drained first; in every case but the
      control listener the descriptor is then queued for close. */
  function RunHandler(st: Relay, fd: int, ready: Readiness, sys: Syscalls): (r: Step)
    ensures ready.readable ==> r == RunReadable(st, fd, sys)
    ensures !ready.readable && ready.failed && fd == st.commsSocket ==>
      r == Raised(ControlListenerLost(st.commsPort), st)
    ensures !ready.readable && ready.failed && fd != st.commsSocket ==>
      && r.Done?
      && r.relay.reg == st.reg && r.relay.sent == st.sent
      && r.relay.fds.pollSockets == st.fds.pollSockets && r.relay.fds.closes == st.fds.closes
      && fd in r.relay.fds.closeQueue
      && (forall k :: k in st.fds.closeQueue ==> k in r.relay.fds.closeQueue && r.relay.fds.closeQueue[k] == st.fds.closeQueue[k])
    ensures !ready.readable && !ready.failed ==> r == Done(st)
  {
    if ready.readable then RunReadable(st, fd, sys)
    else if ready.failed then
      if fd == st.commsSocket then
        Raised(ControlListenerLost(st.commsPort), st)
      else if fd in st.reg.socketRequests then
        var drained := Drain(st, fd, st.reg.socketRequests[fd], sys.spliced).0;
        Done(drained.(fds := AddToCloseQueue(drained.fds, fd)))
      else
        Done(st.(fds := AddToCloseQueue(st.fds, fd)))
    else Done(st)
  }

  /** The POLLIN branch of runHandler. */
  function RunReadable(st: Relay, fd: int, sys: Syscalls): (r: Step)
    ensures RoleOf(st, fd) == ControlListener ==> r == AcceptClient(st, sys)
    ensures RoleOf(st, fd) == BackchannelListener ==> r == RegisterRequest(st, fd, sys.accepted)
    ensures RoleOf(st, fd) == ClientListener ==> r == AcceptRequest(st, fd, sys)
    ensures RoleOf(st, fd) == TunnelMember ==>
      r == Done(ForwardRequest(st, fd, st.reg.socketRequests[fd], SpliceAt(sys.spliced, 0)).0)
    ensures RoleOf(st, fd) == Unknown ==> r == Done(st.(fds := AddToCloseQueue(st.fds, fd)))
  {
    if fd == st.commsSocket then AcceptClient(st, sys)
    else if fd in st.reg.listenerNewRequests then RegisterRequest(st, fd, sys.accepted)
    else if fd in st.reg.listenerClient then AcceptRequest(st, fd, sys)
    else if fd in st.reg.socketRequests then
      Done(ForwardRequest(st, fd, st.reg.socketRequests[fd], SpliceAt(sys.spliced, 0)).0)
    else Done(st.(fds := AddToCloseQueue(st.fds, fd)))
  }
}

=== FILE: relay_loop.dfy ===
/** The relay's main loop: the close-queue pass, the poll round over a copy of
    the poll list, and listen / stopListening / run around them. */
module RelayLoop {
  import opened Tables
  import opened Descriptors
  import opened RelayState
  import opened RelayHandlers

  /** One visit of processCloseQueue's loop to the key `fd`. The flag is read
      when the key is visited, so an entry an earlier visit closed is skipped.
      The three role tests are independent ifs, each seeing the tables the
      previous one left. */
  function ProcessEntry(st: Relay, fd: int): (r: Relay)
    ensures Advances(st.fds, r.fds)
    ensures Keeps(st, r) && r.sent == st.sent
    ensures HasRole(st.reg, fd) ==> Closed(r.fds, fd)
    ensures forall k :: HasRole(st.reg, k) ==> HasRole(r.reg, k) || Closed(r.fds, k)
    ensures !HasRole(st.reg, fd) && fd in st.fds.closeQueue ==> r == st
  {
    var (closed, q) := SubscriptFlag(st.fds.closeQueue, fd);
    var looked := st.(fds := st.fds.(closeQueue := q));
    assert Advances(st.fds, looked.fds);
    if closed then looked
    else
      var r := TearDown(looked, fd);
      AdvancesTransitive(st.fds, looked.fds, r.fds);
      r
  }

  /** The three role tests of one visit, for a key whose flag was false. */
  function TearDown(st: Relay, fd: int): (r: Relay)
    ensures Advances(st.fds, r.fds)
    ensures Keeps(st, r) && r.sent == st.sent
    ensures HasRole(st.reg, fd) ==> Closed(r.fds, fd)
    ensures forall k :: HasRole(st.reg, k) ==> HasRole(r.reg, k) || Closed(r.fds, k)
    ensures !HasRole(st.reg, fd) ==> r == st
  {
    var a := DropClient(st, fd);
    var b := if fd in a.reg.socketRequests then CloseTunnel(a, fd) else a;
    var c := if fd in b.reg.listenerNewRequests then CloseBackchannel(b, fd) else b;
    AdvancesTransitive(st.fds, a.fds, b.fds);
    AdvancesTransitive(st.fds, b.fds, c.fds);
    c
  }

  /** The first role test: a client listener is removed with its client. */
  function DropClient(st: Relay, fd: int): (r: Relay)
    ensures Advances(st.fds, r.fds)
    ensures Keeps(st, r) && r.sent == st.sent
    ensures fd in st.reg.listenerClient ==> Closed(r.fds, fd)
    ensures forall k :: HasRole(st.reg, k) ==> HasRole(r.reg, k) || Closed(r.fds, k)
    ensures fd !in st.reg.listenerClient ==> r == st
  {
    if fd in st.reg.listenerClient then
      RemoveClientListenerForgets(st, fd);
      RemoveClientListenerRoles(st, fd);
      RemoveClientListener(st, fd)
    else st
  }

  /** Both members of a tunnel are queued and closed; the tables keep them. */
  function CloseTunnel(st: Relay, fd: int): (r: Relay)
    requires fd in st.reg.socketRequests
    ensures Closed(r.fds, fd) && Closed(r.fds, st.reg.socketRequests[fd])
    ensures Advances(st.fds, r.fds)
    ensures r.reg == st.reg && Keeps(st, r) && r.sent == st.sent
  {
    var other := st.reg.socketRequests[fd];
    var first := QueueAndClose(st.fds, fd);
    AdvancesTransitive(st.fds, first, QueueAndClose(first, other));
    st.(fds := QueueAndClose(first, other))
  }

  /** A backchannel listener and the peer socket waiting on it are queued and
      closed, the peer first; the tables keep them. */
  function CloseBackchannel(st: Relay, fd: int): (r: Relay)
    requires fd in st.reg.listenerNewRequests
    ensures Closed(r.fds, fd) && Closed(r.fds, st.reg.listenerNewRequests[fd])
    ensures Advances(st.fds, r.fds)
    ensures r.reg == st.reg && Keeps(st, r) && r.sent == st.sent
  {
    var peer := st.reg.listenerNewRequests[fd];
    var first := QueueAndClose(st.fds, peer);
    AdvancesTransitive(st.fds, first, QueueAndClose(first, fd));
    st.(fds := QueueAndClose(first, fd))
  }

  /** The loop of processCloseQueue over the keys in the order `order`. Every
      visited key that had a role, or was closed already, is closed at the
      end, and a role is only ever lost by a descriptor that got closed. */
  function CloseQueuePass(st: Relay, order: seq<int>): (r: Relay)
    ensures Advances(st.fds, r.fds)
    ensures Keeps(st, r) && r.sent == st.sent
    ensures forall k :: k in order && (HasRole(st.reg, k) || Closed(st.fds, k)) ==> Closed(r.fds, k)
    ensures forall k :: HasRole(st.reg, k) ==> HasRole(r.reg, k) || Closed(r.fds, k)
    decreases |order|
  {
    if order == [] then st
    else
      var next := ProcessEntry(st, order[0]);
      var r := CloseQueuePass(next, order[1..]);
      AdvancesTransitive(st.fds, next.fds, r.fds);
      r
  }

  /** processCloseQueue: the pass over the keys present on entry, in any
      order the map may be iterated in, then the queue is cleared. Every
      descriptor pending on entry that had a role is closed once more and no
      longer polled; nothing is added to the poll list. */
  function ProcessCloseQueue(st: Relay, order: seq<int>): (r: Relay)
    requires Enumerates(order, st.fds.closeQueue.Keys)
    ensures r.fds.closeQueue == map[]
    ensures forall k :: Pending(st.fds, k) && HasRole(st.reg, k) ==>
      k !in r.fds.pollSockets && r.fds.closes[k] > st.fds.closes[k]
    ensures forall k :: k in r.fds.pollSockets ==> k in st.fds.pollSockets
    ensures forall k :: k in st.fds.pollSockets && r.fds.closes[k] == st.fds.closes[k] ==> k in r.fds.pollSockets
    ensures st.fds.closes <= r.fds.closes
    ensures Keeps(st, r) && r.sent == st.sent
  {
    var passed := CloseQueuePass(st, order);
    passed.(fds := passed.fds.(closeQueue := map[]))
  }

  /** A pass over keys none of which has a role changes nothing. */
  lemma {:induction false} PassOverOrphans(st: Relay, order: seq<int>)
    requires forall k :: k in order ==> k in st.fds.closeQueue && !HasRole(st.reg, k)
    ensures CloseQueuePass(st, order) == st
    decreases |order|
  {
    if order != [] {
      assert ProcessEntry(st, order[0]) == st;
      PassOverOrphans(st, order[1..]);
    }
  }

  /** When no queued descriptor has a role, processCloseQueue only forgets the
      queue: none of them is closed or leaves the poll list. */
  lemma OrphansDropped(st: Relay, order: seq<int>)
    requires Enumerates(order, st.fds.closeQueue.Keys)
    requires forall k :: k in st.fds.closeQueue ==> !HasRole(st.reg, k)
    ensures ProcessCloseQueue(st, order) == st.(fds := st.fds.(closeQueue := map[]))
  {
    PassOverOrphans(st, order);
  }

  /** What poll reports for one entry, with what the handler's calls answer. */
  datatype Event = Event(ready: Readiness, sys: Syscalls)

  /** The event of the `i`-th snapshot entry; an entry past the given events
      had no readiness. */
  function EventAt(events: seq<Event>, i: nat): Event {
    if i < |events| then events[i] else Event(Quiet, Syscalls(-1, SetupFailed, []))
  }

  predicate IsQuiet(e: Event) {
    !e.ready.readable && !e.ready.failed
  }

  /** The handlers run in index order over the snapshot entries from the
      `i`-th on; an exception stops the round. */
  function Dispatch(st: Relay, snapshot: seq<int>, events: seq<Event>, i: nat): (r: Step)
    requires i <= |snapshot|
    ensures Keeps(st, r.relay)
    ensures (forall j :: i <= j < |snapshot| ==> IsQuiet(EventAt(events, j))) ==> r == Done(st)
    decreases |snapshot| - i
  {
    if i == |snapshot| then Done(st)
    else
      var e := EventAt(events, i);
      var step := RunHandler(st, snapshot[i], e.ready, e.sys);
      HandlerKeeps(st, snapshot[i], e.ready, e.sys);
      match step
      case Raised(_, _) => step
      case Done(next) => Dispatch(next, snapshot, events, i + 1)
  }

  /** Every handler keeps the relay's configuration and only appends messages. */
  lemma HandlerKeeps(st: Relay, fd: int, ready: Readiness, sys: Syscalls)
    ensures Keeps(st, RunHandler(st, fd, ready, sys).relay)
  {
    if !ready.readable && ready.failed && fd != st.commsSocket && fd in st.reg.socketRequests {
      var drained := Drain(st, fd, st.reg.socketRequests[fd], sys.spliced).0;
      assert drained == st || drained == BothQueued(st, fd, st.reg.socketRequests[fd]);
    }
  }

  /** doPoll with runHandler as the callback. The round works on the poll list
      as it was on entry, and only when that list is non-empty and poll
      reported a positive count. */
  function DoPoll(st: Relay, pollReads: int, events: seq<Event>): (r: Step)
    ensures |st.fds.pollSockets| == 0 || pollReads <= 0 ==> r == Done(st)
    ensures Keeps(st, r.relay)
  {
    var snapshot := st.fds.pollSockets;
    if |snapshot| > 0 && pollReads > 0 then Dispatch(st, snapshot, events, 0) else Done(st)
  }

  /** A hangup on the control listener ends the round with the exception, and
      the entries after it in the snapshot are not handled. */
  lemma {:induction false} ControlLossEndsRound(st: Relay, snapshot: seq<int>, events: seq<Event>, i: nat, at: nat)
    requires i <= at < |snapshot| && snapshot[at] == st.commsSocket
    requires forall j :: i <= j < at ==> IsQuiet(EventAt(events, j))
    requires !EventAt(events, at).ready.readable && EventAt(events, at).ready.failed
    ensures Dispatch(st, snapshot, events, i) == Raised(ControlListenerLost(st.commsPort), st)
    decreases at - i
  {
    var e := EventAt(events, i);
    if i < at {
      assert RunHandler(st, snapshot[i], e.ready, e.sys) == Done(st);
      ControlLossEndsRound(st, snapshot, events, i + 1, at);
    } else {
      assert RunHandler(st, snapshot[i], e.ready, e.sys) == Raised(ControlListenerLost(st.commsPort), st);
    }
  }

  /** listen: when not yet listening, the control listener is created on the
      configured port and polled. */
  function Listen(st: Relay, created: NewListener): (r: Step)
    ensures st.isListening ==> r == Done(st)
    ensures !st.isListening && created.SetupFailed? ==> r == Raised(ListenerSetupFailed, st)
    ensures !st.isListening && created.Bound? ==>
      && r.Done? && r.relay.isListening
      && r.relay.commsSocket == created.fd
      && r.relay.fds.pollSockets == st.fds.pollSockets + [created.fd]
      && r.relay.fds.closeQueue == st.fds.closeQueue
      && r.relay.reg == st.reg && r.relay.sent == st.sent
  {
    if st.isListening then Done(st)
    else
      match created
      case SetupFailed => Raised(ListenerSetupFailed, st)
      case Bound(fd, _) =>
        Done(st.(commsSocket := fd, fds := AddPollSocket(st.fds, fd), isListening := true))
  }

  /** stopListening: the control listener is queued for close and the relay
      stops accepting clients. It keeps its descriptor number and its poll
      entry. */
  function StopListening(st: Relay): (r: Relay)
    ensures !r.isListening
    ensures st.isListening ==> r.fds.closeQueue == AddToCloseQueue(st.fds, st.commsSocket).closeQueue
    ensures st.isListening ==> st.commsSocket in r.fds.closeQueue
    ensures r.fds.pollSockets == st.fds.pollSockets && r.fds.closes == st.fds.closes
    ensures r.reg == st.reg && r.sent == st.sent
    ensures r.commsSocket == st.commsSocket
    ensures !st.isListening ==> r == st
  {
    if st.isListening then st.(fds := AddToCloseQueue(st.fds, st.commsSocket), isListening := false)
    else st
  }

  /** setCommsPort: stops listening if needed and records the new port. */
  function SetCommsPort(st: Relay, port: int): (r: Relay)
    ensures r.commsPort == port && !(st.isListening && r.isListening)
    ensures !st.isListening ==> r == st.(commsPort := port)
  {
    StopListening(st).(commsPort := port)
  }

  /** The relay the poll round of `run` starts from: listening, with the close
      queue processed. Every descriptor pending on entry that has a role has
      been closed once more and is no longer polled, every other polled
      descriptor is still polled, and the queue is empty. */
  function ClosePassed(st: Relay, created: NewListener, order: seq<int>): (p: Relay)
    requires Enumerates(order, st.fds.closeQueue.Keys)
    requires st.isListening || created.Bound?
    ensures p.isListening && p.fds.closeQueue == map[]
    ensures p.commsSocket == (if st.isListening then st.commsSocket else created.fd)
    ensures forall k :: Pending(st.fds, k) && HasRole(st.reg, k) ==>
      k !in p.fds.pollSockets && p.fds.closes[k] > st.fds.closes[k]
    ensures forall k :: k in st.fds.pollSockets && p.fds.closes[k] == st.fds.closes[k] ==> k in p.fds.pollSockets
    ensures st.fds.closes <= p.fds.closes
  {
    ProcessCloseQueue(Listen(st, created).relay, order)
  }

  /** run: listen if needed, process the close queue, then one poll round.
      `order` is the order in which the close queue is iterated. Unless the
      control listener cannot be created, the relay is listening afterwards,
      every descriptor pending on entry that has a role has been closed once
      more, whatever the round does, and when the round sees no activity the
      relay is left as the close pass left it: the queue empty and those
      descriptors no longer polled. */
  function Run(st: Relay, created: NewListener, order: seq<int>, pollReads: int, events: seq<Event>): (r: Step)
    requires Enumerates(order, st.fds.closeQueue.Keys)
    ensures !st.isListening && created.SetupFailed? ==> r == Raised(ListenerSetupFailed, st)
    ensures st.isListening || created.Bound? ==>
      && r.relay.isListening
      && r.relay.commsSocket == (if st.isListening then st.commsSocket else created.fd)
    ensures st.sent <= r.relay.sent
    ensures st.isListening || created.Bound? ==>
      forall k :: Pending(st.fds, k) && HasRole(st.reg, k) ==> r.relay.fds.closes[k] > st.fds.closes[k]
    ensures (st.isListening || created.Bound?) && (pollReads <= 0 || forall e :: e in events ==> IsQuiet(e)) ==>
      && r.Done?
      && r.relay.fds.closeQueue == map[]
      && (forall k :: Pending(st.fds, k) && HasRole(st.reg, k) ==> k !in r.relay.fds.pollSockets)
    ensures st.isListening || created.Bound? ==> r == DoPoll(ClosePassed(st, created, order), pollReads, events)
  {
    match Listen(st, created)
    case Raised(f, s) => Raised(f, s)
    case Done(listened) =>
      var processed := ProcessCloseQueue(listened, order);
      assert (forall e :: e in events ==> IsQuiet(e)) ==>
        forall j :: 0 <= j < |processed.fds.pollSockets| ==> IsQuiet(EventAt(events, j));
      DoPoll(processed, pollReads, events)
  }

  /** stopListening followed by run leaks the old control listener: it has no
      role, so the close-queue pass forgets it without closing it, and it
      stays in the poll list next to the new control listener. */
  lemma StopThenRunLeaks(st: Relay, created: NewListener, order: seq<int>, pollReads: int)
    requires st.isListening && st.fds.closeQueue == map[]
    requires !HasRole(st.reg, st.commsSocket)
    requires st.commsSocket in st.fds.pollSockets
    requires created.Bound?
    requires order == [st.commsSocket]
    ensures
      var r := Run(StopListening(st), created, order, pollReads, []);
      && r.Done?
      && r.relay.commsSocket == created.fd
      && st.commsSocket in r.relay.fds.pollSockets
      && created.fd in r.relay.fds.pollSockets
      && r.relay.fds.closes == st.fds.closes
      && r.relay.fds.closeQueue == map[]
  {
    var stopped := StopListening(st);
    assert stopped.fds.closeQueue == map[st.commsSocket := false];
    var listened := Listen(stopped, created).relay;
    assert listened.fds.closeQueue.Keys == {st.commsSocket};
    OrphansDropped(listened, order);
    var processed := ProcessCloseQueue(listened, order);
    assert processed == listened.(fds := listened.fds.(closeQueue := map[]));
    assert forall j :: 0 <= j < |processed.fds.pollSockets| ==> IsQuiet(EventAt([], j));
  }
}

=== FILE: relay_state.dfy ===
/** The fields of an `EZRelay` object, and what one call into the operating
    system can answer. */
module RelayState {
  import opened Tables
  import opened Descriptors

  /** A line sent with `send` on a descriptor. */
  datatype Message = Message(fd: int, text: string)

  /** The connection registry: the relay's tables. */
  datatype Registry = Registry(
    clientListeners: map<int, int>,     // port -> client listener
    listenerClient: map<int, int>,      // client listener -> port
    clientSocket: map<int, int>,        // port -> control connection
    socketPorts: map<int, int>,         // written keyed by port, read keyed by socket
    socketRequests: map<int, int>,      // tunnel member -> the other member
    listenerNewRequests: map<int, int>, // backchannel listener -> waiting peer socket
    listenerNrPorts: map<int, int>,     // backchannel listener -> client port
    clientPorts: seq<int>)

  const EmptyRegistry := Registry(map[], map[], map[], map[], map[], map[], map[], [])

  /** The relay object. `sent` lists the `sendString` calls in order. */
  datatype Relay = Relay(
    hostname: string,
    commsPort: int,
    commsSocket: int,
    isListening: bool,
    reg: Registry,
    fds: Fds,
    sent: seq<Message>)

  /** What the constructor leaves: port 8000, host "localhost", not listening,
      every table empty. The control listener does not exist yet; -1 stands for
      its still unset descriptor. */
  function Init(): (r: Relay)
    ensures !r.isListening && r.reg == EmptyRegistry && r.fds == NoFds
    ensures r.commsPort == 8000 && r.hostname == "localhost"
  {
    Relay("localhost", 8000, -1, false, EmptyRegistry, NoFds, [])
  }

  /** A failure the relay raises as an exception; nothing in the relay catches
      it, so it ends the process. */
  datatype Fault =
    | ListenerSetupFailed            // setsockopt(SO_REUSEADDR) failed in createListener
    | AcceptFailed(listener: int)    // accept returned -1 in registerRequest
    | ControlListenerLost(port: int) // hangup or error on the control listener

  /** The outcome of an operation that may throw: the state the object is in
      when it returns, or when the exception leaves it. */
  datatype Step = Done(relay: Relay) | Raised(fault: Fault, relay: Relay)

  /** What `createListener(0, ...)` followed by `getPortFromSocket` yields: a
      listening descriptor and the port the system bound it to, or the
      exception createListener throws when setsockopt fails. */
  datatype NewListener = Bound(fd: int, port: int) | SetupFailed

  /** The answers of the operating system to the calls one handler makes:
      what `accept` returns (a new descriptor or -1), what a new listener
      turns out to be, and the byte counts successive `splice` calls from the
      readable side return. Past the end of `spliced` the stream is exhausted
      and `splice` returns 0. */
  datatype Syscalls = Syscalls(accepted: int, listener: NewListener, spliced: seq<int>)

  /** The byte count the `i`-th splice call returns. */
  function SpliceAt(spliced: seq<int>, i: nat): int {
    if i < |spliced| then spliced[i] else 0
  }

  /** `listener_client[fd]`, read with the insert-on-miss default. */
  function PortOf(reg: Registry, listener: int): int {
    if listener in reg.listenerClient then reg.listenerClient[listener] else 0
  }

  /** `client_socket[port]`, read with the insert-on-miss default. */
  function ControlOf(reg: Registry, port: int): int {
    if port in reg.clientSocket then reg.clientSocket[port] else 0
  }

  /** `socket_ports[fd]`, read with the insert-on-miss default. */
  function SocketPortOf(reg: Registry, fd: int): int {
    if fd in reg.socketPorts then reg.socketPorts[fd] else 0
  }

  /** `listener_newrequests[fd]`, read with the insert-on-miss default. */
  function PeerOf(reg: Registry, listener: int): int {
    if listener in reg.listenerNewRequests then reg.listenerNewRequests[listener] else 0
  }

  /** `listener_nr_ports[fd]`, read with the insert-on-miss default. */
  function RequestPortOf(reg: Registry, listener: int): int {
    if listener in reg.listenerNrPorts then reg.listenerNrPorts[listener] else 0
  }

  /** `listener_client` and `client_listeners` are inverse maps: each client
      listener is filed under its port and each port under its listener. */
  predicate Inverse(reg: Registry) {
    Inverses(reg.listenerClient, reg.clientListeners)
  }

  /** The roles processCloseQueue knows how to tear down. */
  predicate HasRole(reg: Registry, fd: int) {
    fd in reg.listenerClient || fd in reg.socketRequests || fd in reg.listenerNewRequests
  }

  /** `b` has the configuration and listening state of `a`, the messages of
      `b` continue those of `a`, and no close issued by `a` is undone: what
      every handler keeps. */
  predicate Keeps(a: Relay, b: Relay) {
    && b.hostname == a.hostname && b.commsPort == a.commsPort
    && b.commsSocket == a.commsSocket && b.isListening == a.isListening
    && a.sent <= b.sent
    && a.fds.closes <= b.fds.closes
  }
}

=== FILE: tables.dfy ===
/** Container operations the relay and the client perform on their tables:
    `unordered_map::operator[]` (which inserts on a miss), the remove_if/erase
    idiom on vectors, and enumerations of a map's keys. */
module Tables {

  /** `m[k]` on an `unordered_map<int, int>`: the value under `k`, and the map
      after the lookup, which has gained `k -> 0` if `k` was missing. */
  function Subscript(m: map<int, int>, k: int): (r: (int, map<int, int>))
    ensures r.1.Keys == m.Keys + {k}
    ensures r.0 == r.1[k]
    ensures forall j :: j in m ==> r.1[j] == m[j]
    ensures k !in m ==> r.0 == 0
  {
    if k in m then (m[k], m) else (0, m[k := 0])
  }

  /** `m[k]` on an `unordered_map<int, bool>`: inserts `k -> false` on a miss. */
  function SubscriptFlag(m: map<int, bool>, k: int): (r: (bool, map<int, bool>))
    ensures r.1.Keys == m.Keys + {k}
    ensures r.0 == r.1[k]
    ensures forall j :: j in m ==> r.1[j] == m[j]
    ensures k !in m ==> !r.0
    ensures k in m ==> r.1 == m
  {
    if k in m then (m[k], m) else (false, m[k := false])
  }

  /** `m` after `m[k]` has been read for every `k` of `keys`: each missing key
      has gained the value 0. */
  function SubscriptAll(m: map<int, int>, keys: set<int>): (r: map<int, int>)
    ensures r.Keys == m.Keys + keys
    ensures forall k :: k in r ==> r[k] == (if k in m then m[k] else 0)
  {
    map k | k in m.Keys + keys :: if k in m then m[k] else 0
  }

  /** `v.erase(std::remove(v.begin(), v.end(), x), v.end())`: every occurrence of
      `x` goes, every other element keeps its multiplicity. */
  function Without(s: seq<int>, x: int): (r: seq<int>)
    ensures forall y :: y in r <==> y in s && y != x
    ensures x !in s ==> r == s
    decreases |s|
  {
    if s == [] then []
    else
      assert s == [s[0]] + s[1..];
      (if s[0] == x then [] else [s[0]]) + Without(s[1..], x)
  }

  /** Every element other than `x` keeps its multiplicity. */
  lemma {:induction false} WithoutKeepsOthers(s: seq<int>, x: int, y: int)
    requires y != x
    ensures multiset(Without(s, x))[y] == multiset(s)[y]
    decreases |s|
  {
    if s != [] {
      WithoutKeepsOthers(s[1..], x, y);
      assert s == [s[0]] + s[1..];
      var head := if s[0] == x then [] else [s[0]];
      assert multiset(head + Without(s[1..], x)) == multiset(head) + multiset(Without(s[1..], x));
    }
  }

  /** Removing an element from a concatenation removes it from each part,
      so the survivors keep their relative order. */
  lemma {:induction false} WithoutConcat(a: seq<int>, b: seq<int>, x: int)
    ensures Without(a + b, x) == Without(a, x) + Without(b, x)
    decreases |a|
  {
    if a == [] {
      assert a + b == b;
    } else {
      var head := if a[0] == x then [] else [a[0]];
      calc {
        Without(a + b, x);
        { assert (a + b)[0] == a[0] && (a + b)[1..] == a[1..] + b; }
        head + Without(a[1..] + b, x);
        { WithoutConcat(a[1..], b, x); }
        head + (Without(a[1..], x) + Without(b, x));
        (head + Without(a[1..], x)) + Without(b, x);
        Without(a, x) + Without(b, x);
      }
    }
  }

  /** Every element of `s` that is in `xs` goes; the others keep their order. */
  function WithoutAll(s: seq<int>, xs: set<int>): (r: seq<int>)
    ensures forall y :: y in r <==> y in s && y !in xs
    decreases |s|
  {
    if s == [] then []
    else (if s[0] in xs then [] else [s[0]]) + WithoutAll(s[1..], xs)
  }

  /** Removing the empty set changes nothing. */
  lemma {:induction false} WithoutAllNothing(s: seq<int>)
    ensures WithoutAll(s, {}) == s
    decreases |s|
  {
    if s != [] {
      WithoutAllNothing(s[1..]);
    }
  }

  /** Removing a singleton set is removing that element. */
  lemma {:induction false} WithoutAllSingleton(s: seq<int>, x: int)
    ensures WithoutAll(s, {x}) == Without(s, x)
    decreases |s|
  {
    if s != [] {
      WithoutAllSingleton(s[1..], x);
    }
  }

  /** `order` lists every key of a map exactly once: one of the orders in which
      iterating an `unordered_map` may visit it. */
  predicate Enumerates(order: seq<int>, keys: set<int>) {
    && (forall k :: k in keys ==> k in order)
    && (forall k :: k in order ==> k in keys)
    && (forall i, j :: 0 <= i < j < |order| ==> order[i] != order[j])
  }

  /** Dropping the first key of an enumeration enumerates the remaining keys. */
  lemma EnumeratesTail(order: seq<int>, keys: set<int>)
    requires Enumerates(order, keys) && |order| > 0
    ensures Enumerates(order[1..], keys - {order[0]})
  {
    forall k | k in order[1..]
      ensures k != order[0]
    {
      var i :| 0 <= i < |order[1..]| && order[1..][i] == k;
      assert order[i + 1] == k;
    }
  }

  /** The elements of a sequence. */
  function Members(s: seq<int>): (r: set<int>)
    ensures forall k :: k in r <==> k in s
  {
    set k | k in s
  }

  lemma MembersCons(a: set<int>, s: seq<int>)
    requires s != []
    ensures a + {s[0]} + Members(s[1..]) == a + Members(s)
  {
    assert s == [s[0]] + s[1..];
  }

  /** An enumeration lists exactly the keys it enumerates. */
  lemma EnumeratedMembers(order: seq<int>, keys: set<int>)
    requires Enumerates(order, keys)
    ensures Members(order) == keys
  {
    forall k | k in keys
      ensures k in Members(order)
    {
      assert k in order;
    }
    forall k | k in Members(order)
      ensures k in keys
    {
      assert k in order;
    }
  }

  /** `a` and `b` are inverse maps: each key of one is filed in the other
      under its value. */
  predicate Inverses(a: map<int, int>, b: map<int, int>) {
    && (forall k :: k in a ==> a[k] in b && b[a[k]] == k)
    && (forall v :: v in b ==> b[v] in a && a[b[v]] == v)
  }

  /** Every key's value is a key whose value is that key. */
  predicate Symmetric(m: map<int, int>) {
    forall k :: k in m ==> m[k] in m && m[m[k]] == k
  }

  /** Filing a fresh key under a fresh value in both maps keeps them inverse. */
  lemma InversesWith(a: map<int, int>, b: map<int, int>, k: int, v: int)
    requires Inverses(a, b) && k !in a && v !in b
    ensures Inverses(a[k := v], b[v := k])
  {
  }

  /** Dropping a key from one map and its value from the other keeps them
      inverse. */
  lemma InversesWithout(a: map<int, int>, b: map<int, int>, k: int)
    requires Inverses(a, b) && k in a
    ensures Inverses(a - {k}, b - {a[k]})
  {
  }

  /** Pairing two fresh keys with each other keeps a map symmetric. */
  lemma SymmetricWith(m: map<int, int>, x: int, y: int)
    requires Symmetric(m) && x !in m && y !in m
    ensures Symmetric(m[x := y][y := x])
  {
  }
}

=== FILE: text.dfy ===
/** The text side of the control protocol: `std::to_string` on an `int`, the
    `stringstream >> int` extraction the client applies to a received line,
    and the `readLine` helper that both the relay and the client define. */
module Text {

  const IntMin: int := -0x8000_0000
  const IntMax: int := 0x7fff_ffff

  predicate IsDigit(c: char) {
    '0' <= c <= '9'
  }

  predicate AllDigits(s: string) {
    forall i :: 0 <= i < |s| ==> IsDigit(s[i])
  }

  /** The white-space characters of the "C" locale, which `>>` skips. */
  predicate IsSpace(c: char) {
    c == ' ' || c == '\t' || c == '\n' || c == 11 as char || c == 12 as char || c == '\r'
  }

  function DigitChar(d: nat): (c: char)
    requires d < 10
    ensures IsDigit(c)
  {
    ('0' as int + d) as char
  }

  function DigitValue(c: char): (d: nat)
    requires IsDigit(c)
    ensures d < 10
  {
    c as int - '0' as int
  }

  /** The decimal digits of `n`, most significant first, without leading zeros. */
  function Digits(n: nat): (s: string)
    ensures |s| > 0 && AllDigits(s)
    ensures s[0] == '0' ==> n == 0
    decreases n
  {
    if n < 10 then [DigitChar(n)] else Digits(n / 10) + [DigitChar(n % 10)]
  }

  /** `std::to_string(n)`. */
  function Decimal(n: int): (s: string)
    ensures |s| > 0
    ensures n < 0 <==> s[0] == '-'
    ensures n >= 0 ==> AllDigits(s)
  {
    if n < 0 then "-" + Digits(-n) else Digits(n)
  }

  /** The value of a string of decimal digits, most significant first. */
  function Value(ds: string): nat
    requires AllDigits(ds)
    decreases |ds|
  {
    if ds == [] then 0 else Value(ds[..|ds| - 1]) * 10 + DigitValue(ds[|ds| - 1])
  }

  /** Reading back the digits of `n` gives `n`. */
  lemma {:induction false} ValueOfDigits(n: nat)
    ensures Value(Digits(n)) == n
    decreases n
  {
    if n >= 10 {
      ValueOfDigits(n / 10);
      var s := Digits(n);
      assert s[..|s| - 1] == Digits(n / 10);
      assert DigitValue(DigitChar(n % 10)) == n % 10;
    }
  }

  /** The longest prefix of `s` made of decimal digits. */
  function LeadingDigits(s: string): (ds: string)
    ensures ds <= s && AllDigits(ds)
    ensures |ds| < |s| ==> !IsDigit(s[|ds|])
    decreases |s|
  {
    if s == [] || !IsDigit(s[0]) then [] else [s[0]] + LeadingDigits(s[1..])
  }

  /** A run of digits followed by a non-digit (or nothing) is exactly the
      leading-digit prefix. */
  lemma {:induction false} LeadingDigitsOfRun(ds: string, tail: string)
    requires AllDigits(ds)
    requires tail == [] || !IsDigit(tail[0])
    ensures LeadingDigits(ds + tail) == ds
    decreases |ds|
  {
    if ds == [] {
      assert ds + tail == tail;
    } else {
      assert (ds + tail)[0] == ds[0];
      assert (ds + tail)[1..] == ds[1..] + tail;
      LeadingDigitsOfRun(ds[1..], tail);
      assert ds == [ds[0]] + ds[1..];
    }
  }

  function DropSpaces(s: string): (t: string)
    ensures |t| <= |s|
    ensures t == [] || !IsSpace(t[0])
    decreases |s|
  {
    if s != [] && IsSpace(s[0]) then DropSpaces(s[1..]) else s
  }

  /** A value the extraction cannot represent saturates at the bounds of `int`. */
  function Saturate(v: int): (n: int)
    ensures IntMin <= n <= IntMax
    ensures IntMin <= v <= IntMax ==> n == v
  {
    if v < IntMin then IntMin else if v > IntMax then IntMax else v
  }

  /** The line starts (after white space) with an optional sign and a digit:
      the shape `>>` needs to extract an integer. */
  predicate HasLeadingInteger(line: string) {
    var t := DropSpaces(line);
    if |t| > 0 && (t[0] == '-' || t[0] == '+') then LeadingDigits(t[1..]) != []
    else LeadingDigits(t) != []
  }

  /** `int n = 0; std::stringstream ss; ss << line; ss >> n;`: skip white
      space, read an optional sign and the digits after it; no digits leaves
      0, an out-of-range value saturates. */
  function ParseInt(line: string): (n: int)
    ensures IntMin <= n <= IntMax
    ensures !HasLeadingInteger(line) ==> n == 0
  {
    var t := DropSpaces(line);
    if |t| > 0 && (t[0] == '-' || t[0] == '+') then
      var ds := LeadingDigits(t[1..]);
      if ds == [] then 0 else Saturate(if t[0] == '-' then -(Value(ds) as int) else Value(ds))
    else
      var ds := LeadingDigits(t);
      if ds == [] then 0 else Saturate(Value(ds))
  }

  /** Parsing what `std::to_string` printed, followed by anything that does not
      continue the number (the protocol's "\n"), gives the number back. */
  lemma ParseDecimal(n: int, tail: string)
    requires IntMin <= n <= IntMax
    requires tail == [] || !IsDigit(tail[0])
    ensures ParseInt(Decimal(n) + tail) == n
  {
    if n < 0 {
      ParseNegativeDecimal(n, tail);
    } else {
      ParseNaturalDecimal(n, tail);
    }
  }

  lemma ParseNegativeDecimal(n: int, tail: string)
    requires IntMin <= n < 0
    requires tail == [] || !IsDigit(tail[0])
    ensures ParseInt(Decimal(n) + tail) == n
  {
    var ds := Digits(-n);
    assert Decimal(n) + tail == ['-'] + (ds + tail) by {
      assert Decimal(n) == ['-'] + ds;
    }
    assert ParseInt(['-'] + (ds + tail)) == Saturate(-(Value(ds) as int)) by {
      ParseNegativeRun(ds + tail, ds, tail);
    }
    assert Value(ds) == -n by {
      ValueOfDigits(-n);
    }
  }

  lemma ParseNaturalDecimal(n: int, tail: string)
    requires 0 <= n <= IntMax
    requires tail == [] || !IsDigit(tail[0])
    ensures ParseInt(Decimal(n) + tail) == n
  {
    var ds := Digits(n);
    ParseUnsignedRun(ds + tail, ds, tail);
    ValueOfDigits(n);
  }

  lemma ParseUnsignedRun(s: string, ds: string, tail: string)
    requires ds != [] && AllDigits(ds)
    requires tail == [] || !IsDigit(tail[0])
    requires s == ds + tail
    ensures ParseInt(s) == Saturate(Value(ds))
  {
    assert s[0] == ds[0];
    assert DropSpaces(s) == s;
    LeadingDigitsOfRun(ds, tail);
  }

  lemma ParseNegativeRun(s: string, ds: string, tail: string)
    requires ds != [] && AllDigits(ds)
    requires tail == [] || !IsDigit(tail[0])
    requires s == ds + tail
    ensures ParseInt(['-'] + s) == Saturate(-(Value(ds) as int))
  {
    var m := ['-'] + s;
    assert m[0] == '-';
    assert DropSpaces(m) == m;
    assert m[1..] == s;
    LeadingDigitsOfRun(ds, tail);
  }

  /** `std::find(buffer, buffer + len, c) - buffer`: the index of the first
      `c`, or the length when there is none. */
  function Find(s: string, c: char): nat
    decreases |s|
  {
    if s == [] || s[0] == c then 0 else 1 + Find(s[1..], c)
  }

  /** The pointer `find` returns never lies past the end of the chunk, so the
      test `find(...) <= buffer + len` holds for every chunk. */
  lemma {:induction false} FindWithinChunk(s: string, c: char)
    ensures Find(s, c) <= |s|
    ensures Find(s, c) < |s| <==> c in s
    decreases |s|
  {
    if s != [] && s[0] != c {
      FindWithinChunk(s[1..], c);
      assert c in s <==> c in s[1..];
    }
  }

  /** `readLine` as written. `recvs` lists what successive `recv` calls return,
      the empty string standing for a return of 0 or -1; once the list is used
      up every further `recv` reports end of stream. Each received chunk is
      appended, and the loop breaks when the newline test succeeds; the result
      pairs the line with `len > 0`. */
  function ReadLine(line: string, recvs: seq<string>): (string, bool)
    decreases |recvs|
  {
    if recvs == [] || |recvs[0]| == 0 then (line, false)
    else if Find(recvs[0], '\n') <= |recvs[0]| then (line + recvs[0], true)
    else ReadLine(line + recvs[0], recvs[1..])
  }

  /** The first received chunk; empty when the first `recv` failed. */
  function FirstChunk(recvs: seq<string>): string {
    if recvs == [] then [] else recvs[0]
  }

  /** `readLine` appends the first chunk only, whether or not it holds a newline,
      and reports success exactly when that first `recv` returned data. */
  lemma ReadLineTakesFirstChunk(line: string, recvs: seq<string>)
    ensures ReadLine(line, recvs) == (line + FirstChunk(recvs), |FirstChunk(recvs)| > 0)
  {
    if recvs == [] || |recvs[0]| == 0 {
      assert line + FirstChunk(recvs) == line;
    } else {
      FindWithinChunk(recvs[0], '\n');
    }
  }
}
